=== FILE: README.md ===
# GrafoBot core, modelled in Dafny

GrafoBot is a Streamlit dashboard. The user picks a project (a colour palette) and uploads a CSV or XLSX file. They then move between screens to draw a bar chart, a scatter chart, an aggregation table or a choropleth map. Almost all of it is UI glue. This project models the four pieces of pure logic underneath and proves properties about them.

- **Navigation** (`navigation.dfy`). The nine screens and the ten-entry transition table drive the `transitions` state machine. A trigger fires the first entry whose trigger matches and whose source is its state or the wildcard `'*'`. A trigger with no matching entry is refused (`MachineError`), modelled as `None`. The library also adds an automatic `to_<state>` trigger for every state, fired from anywhere and ahead of the declared entries. Of these the application fires only `to_start`, so `Navigation.MachineTable` is the declared table with that one automatic entry in front.
- **Column classification** (`classify.dfy`). `col_type` checks the dtype in a fixed order: numeric, bool, datetime, then categorical dtype or fewer than 20 distinct non-null values, and otherwise text. The dtype is an abstract input. Pandas' `is_numeric_dtype` also accepts booleans, so the flag `boolIsNumeric` makes that choice explicit and `PandasBoolIsNumeric` fixes it to pandas' answer.
- **Labels** (`labels.dfy`). `format_cols` renders each column as `"name (Type)"`, and `name` reads a label back by cutting at the first `" ("`.
- **Aggregation** (`frame.dfy`, `ordering.dfy`, `aggregate.dfy`, `grouping_facts.dfy`). `aggregate_df` and the two-key group-by of the bar chart work as pandas does:
  - rows whose key has a null are dropped;
  - there is one row per distinct key tuple, in ascending key order;
  - `count` counts non-null cells and `nunique` counts distinct non-null values;
  - `sum` of an empty group is 0, while `min`, `max` and `mean` of an all-null group are missing;
  - a column name repeated in `reset_index` is an error;
  - `sum` of a date column is a `TypeError` (`Unsupported`), while `mean`, `min` and `max` of one are allowed; a categorical column refuses every function but the counts, also with `TypeError`;
  - key columns that mix numbers and strings sort numbers first, as pandas' fallback sort does.
- **Menus** (`menus.dfy`). The option lists of the chart and table screens are derived from the classification. Each screen has a function menu and builds a table from the choices: the bar chart's, the scatter chart's, and the `show_agg` screen's. An empty menu makes `st.selectbox` return `None`, and `name(None)` then stops the screen with `AttributeError` (`Menus.PickedName`).

  Every screen takes a `Menus.Reading`. The reading `AsWritten` is the program itself: `name` cuts at the first `" ("`, the menus filter labels by substring tests for the type markers, and the bar chart offers "Soma" for a date column. The reading `Corrected` cuts at the last `" ("`, filters on each column's own type and leaves "Soma" off a date column's menu. `Menus.Faithful` names the frames on which a reading does what the labels promise: every frame for `Corrected`, and for `AsWritten` the frames whose column names contain no `'('`. The lemmas about picks hold for both readings on those frames.

Values are integers or strings (`Frame.Value`). Booleans and timestamps are encoded as integers. A cell is `Option<Value>`, where `None` is a null. The mean is an exact rational (`Out.Ratio`), with no floating point.

Semantics worth noting:

- `count` ("Contagem") counts non-null values only, as pandas `Series.count` does.
- The `show_agg` screen's function table has no "Contagem distinta" (app.py:302). It fails with `UnknownFunction` only after the group and value columns have been looked up. Python evaluates `df.groupby(x)[y]` before `funcs[agg]`.

## Model

| member | source | states |
|---|---|---|
| Navigation.FireIsFirstMatch | app.py:77-88 | a trigger is refused exactly when no table entry has that trigger and admits the state; otherwise the step yields the destination of the first entry that does |
| Navigation.FireByUniqueEntry | app.py:77-88 | when only one entry carries a trigger, that entry alone decides the step: its destination if its source admits the state, a refusal otherwise |
| Navigation.StepByEntry | app.py:77-88 | every step under the declared table is decided by the single entry carrying the trigger |
| Navigation.StepIsExpected | app.py:77-88 | the declared table behaves exactly as an independent per-trigger statement of sources and destinations |
| Navigation.WildcardTriggers | app.py:86-87 | `back` from every screen goes to `start`, and `restart` from every screen goes to `project` |
| Navigation.NonWildcardOnlyFromSource | app.py:78-85 | every other trigger succeeds if and only if it is fired from its one listed source |
| Navigation.TriggersUnique | app.py:77-88 | no trigger appears twice in the table |
| Navigation.TableIsClosed | app.py:73-88 | every destination and every named source in the table is one of the nine declared states, and the table is deterministic |
| Navigation.StepStaysInStates | app.py:73-88 | a successful step always lands in a declared state |
| Navigation.TransitionsInterpreted | app.py:77-88 | the declared table, read as the library reads it, agrees with the per-trigger statement on every state and trigger |
| Navigation.MachineStepIsStep | app.py:77-97 | the machine the library builds fires `to_start` from every state into `start`; on every other trigger, and on `to_start` from `project`, it steps exactly as the declared table does |
| Navigation.MachineInterpreted | app.py:77-97 | the machine the library builds agrees with the per-trigger statement, except that `to_start` also leads to `start` from every state |
| Navigation.Incoming | app.py:78-85 | each screen other than `start` and `project` has one incoming trigger, and it is not a wildcard trigger |
| Navigation.OnlyWayIn | app.py:78-85 | a screen other than `start` and `project` is entered only by its incoming trigger, fired from that trigger's listed source |
| Navigation.ExpectedWayIn | app.py:78-85 | the same fact, stated for the per-trigger reading of the table |
| Navigation.EntersOn | app.py:78-85 | any run from `project` that ends in such a screen ends with its incoming trigger, fired after a run that reached the listed source |
| Navigation.ShowAggOnlyViaChooseAggOn | app.py:78-83 | for any table read like the declared one, where `to_start` may also fire from any state, a run from `project` to `show_agg` ends with `go_chart`, `agg`, `showagg`, and the run before those three triggers reaches `start` |
| Navigation.ShowAggOnlyViaChooseAgg | app.py:78-97 | through the machine the library builds, `show_agg` is reachable from `project` only through `start`, `choose_chart` and `choose_agg`, so any such run has at least four triggers |
| Navigation.ShowAggReachableOn | app.py:78-83 | for any table read like the declared one, where `to_start` may also fire from any state, `to_start`, `go_chart`, `agg`, `showagg` leads from `project` to `show_agg` |
| Navigation.ShowAggReachable | app.py:78-97 | through the machine the library builds, `to_start`, `go_chart`, `agg`, `showagg` leads from `project` to `show_agg` |
| Classify.ColTypeOf | app.py:37-44 | "Numérica" iff the dtype is numeric; "Booleana" iff boolean and booleans are not numeric; "Data/Hora" iff datetime; "Categórica" or "Texto" iff the dtype is categorical or object; "Categórica" iff categorical dtype, or object with fewer than 20 distinct non-null values |
| Classify.ColTypeByName | app.py:37-38 | classifying by name fails exactly when the frame has no column of that name, and otherwise classifies a column of that name |
| Classify.NumericIgnoresCardinality | app.py:39-42 | a numeric column is "Numérica" whatever its values: the dtype check comes before the cardinality check |
| Classify.BooleanaShadowed | app.py:39-40 | with pandas' `is_numeric_dtype`, no column is ever "Booleana", and a boolean column is "Numérica" |
| Classify.ClassifyIgnoresRowOrder | app.py:42-44 | the classification depends only on the dtype and the set of values, not on row order or repetition |
| Classify.FilteringOnlyMovesTowardsCategorical | app.py:42-44 | keeping a subset of a column's values never turns "Categórica" into "Texto"; every other type is unchanged |
| Frame.IndexOf | app.py:38 | looking a column up by name fails exactly when no column has that name; otherwise, on a frame whose column names are distinct, it finds the column with that name |
| Frame.CountNonNull | app.py:55 | `count` is the number of cells less the number of null cells; it equals the number of cells iff no cell is null, and is 0 iff every cell is null |
| Frame.Values | app.py:42 | the distinct values of a column are exactly the values of its non-null cells |
| Frame.NUniqueAtMostCount | app.py:55-57 | `nunique` never exceeds `count` |
| Frame.NUniqueOfSubset | app.py:42 | cells drawn from another column's cells have no more distinct values than it |
| Labels.TypeNamePlain | app.py:39-44 | no type label is empty or contains a space or parenthesis |
| Labels.TypeNameInjective | app.py:39-44 | the five type labels are pairwise different |
| Labels.FormatCols | app.py:46-47 | one label per column, in column order, each being the column name, `" ("`, the column's type label and `")"` |
| Labels.Name | app.py:49-50 | `name` returns a prefix of the label that contains no `" ("`, and the label either is that prefix or continues with `" ("` |
| Labels.NameStopsAtFirstSep | app.py:49-50 | `name` cuts the label exactly at its first `" ("` |
| Labels.SepInLabel | app.py:46-47 | in a rendered label, `" ("` occurs right after the column name and otherwise exactly where it occurs in the name |
| Labels.NameRoundTripIff | app.py:46-50 | reading back a rendered label gives the column name if and only if the name does not contain `" ("` |
| Labels.NamesAreShorter | app.py:49-50 | the name read from a label is never longer than the label |
| Labels.ReceitaLosesItsUnit | app.py:49-50 | the label of a numeric column "Receita (R$)" is read back as "Receita" by `name`, and as "Receita (R$)" by the last-separator reading |
| Labels.LastSepBefore | app.py:49-50 | finds the last `" ("` before a position, or reports that there is none |
| Labels.NameLast | app.py:49-50 | the corrected reading returns the label up to its last `" ("`, or the whole label when it has none |
| Labels.NameLastRoundTrip | app.py:46-50 | the corrected reading gives back every column name from its label |
| Labels.LabelChars | app.py:46-47 | a rendered label is the column name, a space, `'('`, the type label and `')'`, position by position |
| Labels.MarkerChars | app.py:148 | a type marker such as `"(Texto)"` starts with `'('` and contains no space |
| Labels.MarkerNotAcrossName | app.py:148 | no type marker in a label starts inside the column name and runs past its end |
| Labels.MarkerAtTypeIsOwnType | app.py:148 | a type marker found at the label's own `'('` is the marker of the column's own type |
| Labels.MarkerNotInsideType | app.py:148 | no type marker starts inside the label's type part |
| Labels.LabelIsNameSpaceMarker | app.py:46-47 | a label is the column name, a space and the column's own marker |
| Labels.MarkerInLabelIf | app.py:148 | the column's own marker, and any marker inside the column name, occur in its label |
| Labels.MarkerInLabelOnlyIf | app.py:148 | any other occurrence of a marker in a label lies inside the column name |
| Labels.MarkerInLabel | app.py:148 | the substring test `"(T)" in label` holds iff the column's type is T or the column NAME already contains `"(T)"` |
| Labels.NoParenNoMarker | app.py:148 | a column name without `'('` contains no type marker |
| Ordering.StrLessIrreflexive | app.py:55 | no string sorts before itself |
| Ordering.StrLessTransitive | app.py:55 | the string order used for group keys is transitive |
| Ordering.StrLessTotal | app.py:55 | of two different strings, one sorts before the other |
| Ordering.KeyLessIrreflexive | app.py:55 | no key tuple sorts before itself |
| Ordering.KeyLessTransitive | app.py:55 | the key-tuple order is transitive |
| Ordering.KeyLessTotal | app.py:55 | of two different key tuples, one sorts before the other |
| Ordering.Insert | app.py:55 | adding a key to an ascending key list keeps it ascending and adds exactly that key |
| Ordering.SortedKeysDistinct | app.py:55 | an ascending key list has no key twice |
| Aggregation.KeyOf | app.py:55 | a row has a group key exactly when none of its key cells is null, and the key holds their values in order |
| Aggregation.FindAll | app.py:181 | the group columns are found exactly when each exists; otherwise the error names a missing one |
| Aggregation.Project | app.py:55 | `groupby(keys)[y]` fails with a missing-column error exactly when a group column or the value column is missing; otherwise it pairs each row's key cells and value cell |
| Aggregation.GroupKeys | app.py:55 | the group keys are ascending, and they are exactly the keys of the rows whose key has no null |
| Aggregation.GroupCells | app.py:55 | every cell of a group is the value of a row carrying that group's key, and a group has no more cells than there are rows |
| Aggregation.GroupCellsCount | app.py:55 | a group has exactly one cell per row carrying its key |
| Aggregation.GroupCellsComplete | app.py:55 | the value of every row carrying a group's key is in that group |
| Aggregation.GroupCellsMultiplicity | app.py:55 | each cell occurs in a group exactly as often as rows carrying the group's key hold it |
| Aggregation.Nums | app.py:58 | the numbers of a group are missing exactly when it holds text; otherwise there is one per non-null cell, and they are exactly its numeric values |
| Aggregation.NumsCounts | app.py:58 | each number occurs among a group's numbers exactly as often as a cell holding it occurs in the group |
| Aggregation.Min | app.py:58 | `min` is a member of the group that bounds every other from below |
| Aggregation.Max | app.py:58 | `max` is a member of the group that bounds every other from above |
| Aggregation.Reduce | app.py:53-58 | a group's reduction fails exactly when a numeric reducer meets text; `count` is the non-null count, `nunique` the distinct count, the others reduce the group's numbers |
| Aggregation.NumericReduce | app.py:53-58 | `min` and `max` are members bounding the group; the mean times the count is the sum; only `sum` has a value for an empty group |
| Aggregation.ReduceGroups | app.py:55-58 | the reduction fails exactly when some group fails; otherwise there is one row per key, in key order, holding that group's reduction |
| Aggregation.Repeated | app.py:55 | a name is reported repeated exactly when the list has a duplicate, and that name occurs twice |
| Aggregation.Aggregate | app.py:52-58 | no group columns, a missing column, a function the value column's type refuses (pandas' `TypeError` for the `sum` of dates and for anything but a count of a categorical column), text under a numeric reducer and a repeated output name are the only errors. A missing column is reported first, as `KeyError`; a refused pair always fails, and fails only as `Unsupported`; a `NonNumeric` failure means the value column holds text. On success the header is the group columns then `y`, and the rows are one per distinct complete key, ascending, each holding its group's reduction; a count over existing, distinct columns always succeeds |
| Aggregation.OnlyClashRemains | app.py:52-58 | once the columns exist and the value column suits the function, the aggregation fails exactly when an output name repeats or the value column's type refuses the function (a date `sum`, or a categorical column under mean, sum, min or max), and fails with one of those two errors |
| Aggregation.GroupsReduce | app.py:53-58 | every group of a count, or of a value column holding no text, reduces |
| Aggregation.FailsOnlyOnText | app.py:53-58 | a group fails to reduce only under a numeric reducer, and only when the value column holds text |
| GroupingFacts.GroupsPartitionRows | app.py:55 | the groups partition the rows whose key is complete: any per-cell weight summed group by group equals its sum over those rows |
| GroupingFacts.EachKeyOnce | app.py:52-58 | no key appears in two result rows, and every complete key of the input appears in some result row |
| GroupingFacts.CountsAddUp | app.py:54-55 | the "Contagem" results add up to the number of rows whose key and value are both non-null |
| GroupingFacts.SumsAddUp | app.py:53-58 | the "Soma" results add up to the sum of the values of all rows whose key is complete |
| GroupingFacts.DistinctAtMostCount | app.py:54-57 | "Contagem distinta" succeeds whenever "Contagem" does, lists the same groups, and never exceeds it in any group |
| GroupingFacts.EmptyInEmptyOut | app.py:52-58 | an empty frame whose columns exist and whose output names differ aggregates to a table without rows, with every function the value column's type accepts; a refused pair (a date `sum`, a categorical column under anything but a count) still fails |
| Menus.AcceptedAt | app.py:148 | the accepted positions are ascending, and are exactly the positions of the columns whose type is accepted |
| Menus.OptionsOf | app.py:148 | a corrected menu offers exactly the labels of the columns whose type is accepted |
| Menus.OptionsInColumnOrder | app.py:148 | a corrected menu is `format_cols` read at the accepted positions: one label per accepted column, in column order |
| Menus.AllOptionsAreFormatCols | app.py:149 | accepting every type, the menu is `format_cols` itself, the bar chart's Y menu |
| Menus.OptionIsLabel | app.py:148-149 | every option of a menu is one of the labels of `format_cols` |
| Menus.EmptyOptions | app.py:285 | a corrected menu is empty exactly when no column has an accepted type |
| Menus.EmptyMenu | app.py:283-285 | on a frame the reading handles, a screen's menu is empty exactly when no column has an accepted type |
| Menus.AggMenu | app.py:155-156 | the function menu has no repeats, and is exactly "Contagem", "Contagem distinta" for a categorical or text column |
| Menus.AggMenuOffers | app.py:154-156 | a function is on the bar chart's menu iff it is a count or the value column is neither categorical nor text |
| Menus.SafeAggMenu | app.py:155-156 | the corrected function menu has no repeats and offers exactly what the program's menu offers, except "Soma" for a date column |
| Menus.FixedMenuLacksDistinct | app.py:290 | the fixed menu of the scatter and table screens is the numeric menu without "Contagem distinta" |
| Menus.ReadsAlike | app.py:49-50 | on a frame the reading handles, a label of `format_cols` reads back as the name of its own column, and both readings agree on it |
| Menus.MenusAlike | app.py:148 | on a frame the reading handles, the program's substring menus and the corrected menus are the same list |
| Menus.PickedName | app.py:150-159 | the name read from a picker is missing (the `AttributeError` of `name(None)`) exactly when its menu is empty, and is otherwise read from one of the menu's labels |
| Menus.BarScreenRenders | app.py:148-159 | the bar chart screen reads its Y and X picks without `AttributeError` exactly when some column is categorical or text |
| Menus.MenuPicks | app.py:237 | a picker over an option menu yields a column name exactly when some column's type is offered on that menu |
| Menus.ScatterScreenRenders | app.py:233-241 | the scatter chart screen reads its X and Y picks without `AttributeError` exactly when some column is categorical, text or numeric and some column is numeric |
| Menus.BarAggMenuOfLabel | app.py:153-156 | picking a column's label as Y gives the function menu for that column's type |
| Menus.NoColourIsNoLabel | app.py:163-165 | "(nenhum)" is never a column label, so it cannot hide a column |
| Menus.ColourPickFindsColumn | app.py:162-165 | the colour picker yields no column exactly for "(nenhum)", and otherwise the categorical or text column whose label was picked |
| Menus.GroupingFor | app.py:175-187 | the X column is always grouped on; the colour column is added iff one is chosen and its name is not empty |
| Menus.BarChartTable | app.py:173-187 | the bar chart's table has the group columns and then Y as its header, and every row carries one key value per group column |
| Menus.BarRowsHaveFullKeys | app.py:181-185 | every row of a successful aggregation carries one key value per group column |
| Menus.ScatterTable | app.py:251 | the scatter chart's table, as written, has only X and Y as its columns |
| Menus.ScatterColourNotInTable | app.py:251-254 | a colour other than X and Y is never a column of the table the scatter plot is drawn from |
| Menus.ScatterTableColoured | app.py:242-254 | grouped like the bar chart, the scatter table's header holds the chosen colour column |
| Menus.ChooseAggForm | app.py:283-290 | on a frame the reading handles, the table screen shows its warning exactly when no column is categorical or text, or no column is numeric; otherwise it offers those two menus and the fixed function menu |
| Menus.SubmitFindsPicks | app.py:283-294 | "Gerar tabela" stores the picked function and the names of the very columns whose labels were picked, a categorical or text one and a numeric one |
| Menus.ShowAggTable | app.py:299-303 | the `show_agg` screen fails on a missing column first; then it fails on "Contagem distinta", which its table lacks; otherwise it is the aggregation by the stored columns |
| Menus.LabelFindsColumn | app.py:47-50 | the corrected reading of a column's label finds a column, which is that column when names are distinct |
| Menus.OptionFindsColumn | app.py:148-159 | every option of a corrected menu reads back as the name of a column of an accepted type, the column whose label it is |
| Menus.PickFindsColumn | app.py:148-159 | on a frame the reading handles, every pick from a screen's menu reads back as the name of the column whose label was picked, and that column has an accepted type |
| Menus.NonTextTypeHoldsNoText | app.py:155-156 | a column that is neither categorical nor text holds no text |
| Menus.BarKeysFound | app.py:159-165 | the X and colour columns picked on the bar chart exist |
| Menus.BarValueSuits | app.py:153-159 | the picked Y column exists, any function from its menu is a count or meets no text, and the corrected menu never offers a function the column's type refuses |
| Menus.BarChartOnlyClashes | app.py:150-187 | whatever is picked from the bar chart's menus, the table is built iff no column was picked twice and the value column's type accepts the function; a failure is one of those two; with the corrected menus only the first can happen |
| Menus.DateSumOffered | app.py:153-185 | the program's bar chart offers "Soma" for every date column, and that pick fails with `TypeError` whatever X and colour are |
| Menus.ValueOptionHoldsNoText | app.py:284 | a numeric option names an existing column that holds no text and is neither a date nor a categorical column |
| Menus.GroupAndValueDiffer | app.py:283-289 | a group option and a numeric option always name different columns |
| Menus.ShowAggSucceeds | app.py:298-303 | the `show_agg` table is built for any group and numeric option and any function other than "Contagem distinta" |
| Menus.ShowAggFromMenusSucceeds | app.py:283-303 | whatever is picked from the table screen's menus, the `show_agg` table is built |
| Menus.DistinctPair | app.py:303 | two output names clash iff they are equal |
| Menus.ScatterOnlyClashes | app.py:235-251 | whatever is picked from the scatter menus, the table is built iff X and Y differ; a failure is a repeated name |
| Menus.MarkedAt | app.py:148 | the marked positions are ascending, and are exactly the positions of the labels carrying an accepted marker |
| Menus.FilterByMarkers | app.py:148 | the substring filter keeps exactly the labels containing one of the accepted markers |
| Menus.MarkedInOrder | app.py:148 | the substring filter keeps the labels at the marked positions, in their order |
| Menus.MarkerOptions | app.py:148 | as written, a menu offers a column iff its type is accepted or its NAME contains an accepted marker |
| Menus.LabelMarked | app.py:148 | a label carries an accepted marker iff its column's type is accepted or its name already carries one |
| Menus.MarkerOptionsAgree | app.py:148 | when no column name contains `'('`, the substring filter and the type filter build the same list |
| Menus.MarkerFilterLeaks | app.py:148 | a column whose type is not accepted but whose name carries an accepted marker is offered by the substring filter and not by the type filter |
| Menus.LeakyMarker | app.py:148 | the name "Total (Texto)" carries the marker "(Texto)" |
| Menus.LeakyLabel | app.py:46-47 | a numeric column "Total (Texto)" is labelled "Total (Texto) (Numérica)" |
| Menus.LeakyName | app.py:49-50 | `name` reads "Total (Texto) (Numérica)" as "Total" |
| Menus.LeakyLookup | app.py:38 | a frame whose only column is "Total (Texto)" has no column "Total" |
| Menus.LeakyColumn | app.py:148-159 | a numeric column "Total (Texto)" is offered on the bar chart's X menu, and `name` turns its label into "Total", a column the frame lacks |

## Left out

- Streamlit rendering, buttons, `st.session_state`, `st.rerun`/`st.stop` and the CSS (app.py:10-27, 92-135) are left out: UI and session plumbing. The session's stored state is modelled only as the `Navigation.State` a run reaches.
- The `transitions` library's automatic triggers other than `to_start` (`to_project`, `to_choose_chart` and the rest) are left out: the application never fires them.
- Plotly figure construction, value-label rounding and annotations (app.py:189-228, 252-277) are left out: library rendering and floating-point rounding.
- `map_choro`, GeoJSON handling and the choropleth screen (app.py:60-70, 313-320) are left out: Folium foreign calls.
- File upload and `pd.read_csv`/`pd.read_excel` (app.py:116-124) are left out: I/O. The frame is an input. Its dtypes are abstract, not inferred.
- The `PROJECTS` palette dictionary (app.py:30-34) is left out: static configuration.
- The dtype of aggregated output columns is left out: results are `Out` values (integer, exact ratio or missing).
- Aggregation.NumericReduce: the mean is an exact rational, not a 64-bit float. `min`, `max` and `sum` are defined over integers only, and text under them is reported as `NonNumeric`. Pandas would compare or concatenate strings there. Timestamps are integers, so the mean, minimum and maximum of a date column come out as numbers rather than timestamps. Sums are unbounded integers, and so are the totals of `GroupingFacts.SumsAddUp`; pandas' `int64` group sum wraps silently on overflow.
- Aggregation.Aggregate: only the error kinds are modelled, not pandas' exception classes. `groupby` on a pandas `Categorical` key, which with `observed=False` also lists empty categories, is not modelled; keys are plain values. A refused function (the `sum` of a date column, anything but a count of a categorical column) fails before the groups are formed, even on a frame without rows. `Aggregation.Refused` does not tell ordered categoricals apart, so it also refuses their `min` and `max`, which pandas allows; the app's menus offer only counts for a categorical column, so no screen reaches that case.
- Menus.BarChartTable, Menus.ScatterTable and Menus.ShowAggTable take the picked labels as given. Whether a screen gets that far with an empty menu is stated separately, by `Menus.BarScreenRenders` and `Menus.ScatterScreenRenders`.
- Menus.PickFindsColumn, Menus.BarChartOnlyClashes, Menus.ScatterOnlyClashes, Menus.ShowAggFromMenusSucceeds and the other lemmas about picks: for the program's own reading they are proved only on frames whose column names contain no `'('`. On other frames the first two findings show how a pick goes wrong.
- Frame.Column, Menus.PickFindsColumn, Menus.BarAggMenuOfLabel, Menus.BarChartOnlyClashes: column labels are strings. A spreadsheet read by `pd.read_excel` can keep a numeric or date header cell as an integer or timestamp label, such as a year `2020`. Its rendered label then reads back as the string "2020", and pandas' lookup by that string fails with `KeyError`. Such non-string labels are not modelled, so the lemmas about picks do not cover those frames.
- Frame.DistinctNames: tables with repeated column names are allowed by the model. The lemmas about menus assume distinct names, which pandas' readers guarantee by renaming duplicates.

## Findings

| source | as written | input that shows it | evidently intended | confidence | as-written member | corrected member |
|---|---|---|---|---|---|---|
| app.py:49-50 | `name` cuts a label at the FIRST `" ("`, so it cannot read back a column whose own name contains `" ("` | a numeric column "Receita (R$)": its label "Receita (R$) (Numérica)" is read back as "Receita", which is not a column | read the label up to its LAST `" ("` (`rsplit(" (", 1)`), which recovers every column name | medium, not executed | Labels.ReceitaLosesItsUnit | Labels.NameLastRoundTrip |
| app.py:148 | the menus keep every label containing a type marker as a substring, including a marker inside the column name | a numeric column named "Total (Texto)" is offered on the bar chart's X menu, and `name` then looks up "Total", which does not exist | offer exactly the columns whose classified type is accepted | low, not executed | Menus.LeakyColumn | Menus.OptionFindsColumn |
| app.py:251-254 | the scatter chart aggregates by X only and then passes the colour column to the plot | any colour column other than X and Y: it is not a column of the aggregated table, so Plotly cannot find it | group by X and the colour column, as the bar chart does | medium, not executed | Menus.ScatterColourNotInTable | Menus.ScatterTableColoured |
| app.py:154-156 | the bar chart's function menu offers "Soma" for every column that is not categorical or text, date columns included | a date column picked as Y with "Soma": pandas refuses to sum `datetime64` values with a `TypeError` | leave "Soma" off the menu of a date column | medium, not executed | Menus.DateSumOffered | Menus.SafeAggMenu |

Every screen is modelled under both readings (`Menus.Reading`). `AsWritten` uses `Labels.Name`, `Menus.MarkerOptions` and `Menus.AggMenu`, as the program does. `Corrected` uses `Labels.NameLast`, `Menus.OptionsOf` and `Menus.SafeAggMenu`. `Menus.BarChartOnlyClashes` proves that with the corrected reading a bar chart fails only when a column is picked twice.

=== FILE: aggregate.dfy ===
/** `aggregate_df` and the two-key variant of the bar chart:
    `df.groupby(keys)[y].<reducer>().reset_index(name=y)`. Rows whose key has
    a null are dropped (pandas' `dropna=True`), one output row is produced per
    distinct key tuple in ascending key order (`sort=True`), and the value
    column is reduced group by group. */
module Aggregation {
  import opened Wrappers
  import opened Frame
  import opened Ordering

  /** The six aggregation choices offered by the menus. */
  datatype AggFunc = Media | Soma | Contagem | ContagemDistinta | Minimo | Maximo

  /** The label each function carries in the menus. */
  function FuncName(f: AggFunc): string {
    match f
    case Media => "Média"
    case Soma => "Soma"
    case Contagem => "Contagem"
    case ContagemDistinta => "Contagem distinta"
    case Minimo => "Mínimo"
    case Maximo => "Máximo"
  }

  /** `count` and `nunique` accept any column; the others need numbers. */
  predicate IsCounting(f: AggFunc) {
    f == Contagem || f == ContagemDistinta
  }

  /** A reduced value: an integer, an exact ratio (for the mean), or
      `Missing` (pandas' NaN for the min, max or mean of an all-null group). */
  datatype Out = Missing | Whole(n: int) | Ratio(q: real)

  datatype AggError =
    | NoGroupKeys                                 // `groupby([])`
    | MissingColumn(name: string)                 // `KeyError` on a group or value column
    | NonNumeric(column: string, func: AggFunc)   // a numeric reducer met text
    | NameClash(name: string)                     // `reset_index` cannot insert a repeated name
    | UnknownFunction(func: AggFunc)              // `KeyError` in a function table lacking `func`
    | Unsupported(column: string, func: AggFunc)  // `TypeError`: the column's type lacks `func`

  datatype AggRow = AggRow(key: seq<Value>, value: Out)

  /** The result frame: its header (group columns, then the value column)
      and its rows. */
  datatype AggTable = AggTable(header: seq<string>, rows: seq<AggRow>)

  /** One input row restricted to the group columns and the value column. */
  datatype Rec = Rec(key: seq<Cell>, val: Cell)

  /** The key tuple of a row, or `None` when one of its key cells is null. */
  function KeyOf(key: seq<Cell>): (r: Option<seq<Value>>)
    ensures r.Some? <==> forall j :: 0 <= j < |key| ==> key[j].Some?
    ensures r.Some? ==> |r.value| == |key| && forall j :: 0 <= j < |key| ==> key[j] == Some(r.value[j])
  {
    if forall j :: 0 <= j < |key| ==> key[j].Some? then
      Some(seq(|key|, j requires 0 <= j < |key| => key[j].value))
    else None
  }

  /** The columns `names` of `t`, or the first name that is missing. */
  function FindAll(t: Table, names: seq<string>): (r: Result<seq<nat>, AggError>)
    ensures r.Success? ==> |r.value| == |names|
    ensures r.Success? ==> forall j :: 0 <= j < |names| ==> Find(t, names[j]) == Some(r.value[j])
    ensures r.Success? <==> forall j :: 0 <= j < |names| ==> Find(t, names[j]).Some?
    ensures r.Failure? ==> r.error.MissingColumn? && r.error.name in names && Find(t, r.error.name).None?
  {
    if |names| == 0 then Success([])
    else
      match Find(t, names[0])
      case None => Failure(MissingColumn(names[0]))
      case Some(i) =>
        match FindAll(t, names[1..])
        case Failure(e) => Failure(e)
        case Success(rest) =>
          assert forall j :: 1 <= j < |names| ==> names[j] == names[1..][j - 1];
          Success([i] + rest)
  }

  /** The rows of `t` restricted to the key columns `ks` and value column `v`. */
  function Records(t: Table, ks: seq<nat>, v: nat): (recs: seq<Rec>)
    requires WellFormed(t)
    requires forall j :: 0 <= j < |ks| ==> ks[j] < |t.columns|
    requires v < |t.columns|
    ensures |recs| == t.rows
    ensures forall i :: 0 <= i < t.rows ==> |recs[i].key| == |ks|
  {
    seq(t.rows, i requires 0 <= i < t.rows =>
      Rec(seq(|ks|, j requires 0 <= j < |ks| => t.columns[ks[j]].cells[i]), t.columns[v].cells[i]))
  }

  /** `df.groupby(keys)[y]` before reduction: the key and value cells of every
      row, or the `KeyError` pandas raises (group columns are looked up first). */
  function Project(t: Table, keys: seq<string>, y: string): (r: Result<seq<Rec>, AggError>)
    requires WellFormed(t)
    ensures r.Success? <==> (forall j :: 0 <= j < |keys| ==> Find(t, keys[j]).Some?) && Find(t, y).Some?
    ensures r.Success? ==> |r.value| == t.rows
    ensures r.Success? ==> forall i, j :: 0 <= i < t.rows && 0 <= j < |keys| ==>
      |r.value[i].key| == |keys| && r.value[i].key[j] == t.columns[Find(t, keys[j]).value].cells[i]
    ensures r.Success? ==> forall i :: 0 <= i < t.rows ==>
      r.value[i].val == t.columns[Find(t, y).value].cells[i]
    ensures r.Failure? ==> r.error.MissingColumn? && (r.error.name in keys || r.error.name == y)
  {
    match FindAll(t, keys)
    case Failure(e) => Failure(e)
    case Success(ks) =>
      match Find(t, y)
      case None => Failure(MissingColumn(y))
      case Some(v) => Success(Records(t, ks, v))
  }

  /** The distinct non-null key tuples of `recs`, ascending. */
  function GroupKeys(recs: seq<Rec>): (ks: seq<seq<Value>>)
    ensures SortedKeys(ks)
    ensures forall k :: k in ks <==> exists i :: 0 <= i < |recs| && KeyOf(recs[i].key) == Some(k)
  {
    if |recs| == 0 then []
    else
      var init := recs[..|recs| - 1];
      var prev := GroupKeys(init);
      assert forall i :: 0 <= i < |init| ==> init[i] == recs[i];
      match KeyOf(recs[|recs| - 1].key)
      case None => prev
      case Some(k) => Insert(prev, k)
  }

  /** The positions of the rows whose key is `k`. */
  function RowsWithKey(recs: seq<Rec>, k: seq<Value>): set<int> {
    set i | 0 <= i < |recs| && KeyOf(recs[i].key) == Some(k)
  }

  /** Dropping the last row removes at most that row from every group. */
  lemma RowsWithKeySnoc(recs: seq<Rec>, k: seq<Value>)
    requires |recs| > 0
    ensures |recs| - 1 !in RowsWithKey(recs[..|recs| - 1], k)
    ensures RowsWithKey(recs, k) == RowsWithKey(recs[..|recs| - 1], k) +
      (if KeyOf(recs[|recs| - 1].key) == Some(k) then {|recs| - 1} else {})
  {
    var init := recs[..|recs| - 1];
    assert forall i :: 0 <= i < |init| ==> init[i] == recs[i];
  }

  /** The value cells of the rows in the group of key `k`, in row order:
      every cell from a row of the group. */
  function GroupCells(recs: seq<Rec>, k: seq<Value>): (vs: seq<Cell>)
    ensures |vs| <= |recs|
    ensures forall c :: c in vs ==> exists i :: 0 <= i < |recs| && KeyOf(recs[i].key) == Some(k) && recs[i].val == c
  {
    if |recs| == 0 then []
    else
      var init := recs[..|recs| - 1];
      assert forall i :: 0 <= i < |init| ==> init[i] == recs[i];
      var last := recs[|recs| - 1];
      GroupCells(init, k) + (if KeyOf(last.key) == Some(k) then [last.val] else [])
  }

  /** A group has exactly one cell per row carrying its key. */
  lemma {:induction false} GroupCellsCount(recs: seq<Rec>, k: seq<Value>)
    ensures |GroupCells(recs, k)| == |RowsWithKey(recs, k)|
  {
    if |recs| > 0 {
      GroupCellsCount(recs[..|recs| - 1], k);
      RowsWithKeySnoc(recs, k);
    }
  }

  /** A group misses no row: the cell of every row carrying its key is in it. */
  lemma {:induction false} GroupCellsComplete(recs: seq<Rec>, k: seq<Value>, i: int)
    requires 0 <= i < |recs| && KeyOf(recs[i].key) == Some(k)
    ensures recs[i].val in GroupCells(recs, k)
    decreases |recs|
  {
    var init := recs[..|recs| - 1];
    var last := recs[|recs| - 1];
    var prev := GroupCells(init, k);
    var here := if KeyOf(last.key) == Some(k) then [last.val] else [];
    assert GroupCells(recs, k) == prev + here;
    if i < |init| {
      assert init[i] == recs[i];
      GroupCellsComplete(init, k, i);
      assert recs[i].val in prev;
    } else {
      assert recs[i].val in here;
    }
  }

  /** The positions of the rows whose key is `k` and whose value cell is `c`. */
  function RowsWithCell(recs: seq<Rec>, k: seq<Value>, c: Cell): set<int> {
    set i | 0 <= i < |recs| && KeyOf(recs[i].key) == Some(k) && recs[i].val == c
  }

  /** A cell occurs in a group exactly as often as rows of that group hold it,
      so the group's count, distinct count and sum are fixed by its rows. */
  lemma {:induction false} GroupCellsMultiplicity(recs: seq<Rec>, k: seq<Value>, c: Cell)
    ensures multiset(GroupCells(recs, k))[c] == |RowsWithCell(recs, k, c)|
  {
    if |recs| > 0 {
      var init := recs[..|recs| - 1];
      var last := recs[|recs| - 1];
      GroupCellsMultiplicity(init, k, c);
      RowsWithCellSnoc(recs, k, c);
      var here := if KeyOf(last.key) == Some(k) then [last.val] else [];
      assert GroupCells(recs, k) == GroupCells(init, k) + here;
      assert multiset(GroupCells(recs, k)) == multiset(GroupCells(init, k)) + multiset(here);
    }
  }

  /** Dropping the last row removes at most that row from the rows holding `c`. */
  lemma RowsWithCellSnoc(recs: seq<Rec>, k: seq<Value>, c: Cell)
    requires |recs| > 0
    ensures |recs| - 1 !in RowsWithCell(recs[..|recs| - 1], k, c)
    ensures RowsWithCell(recs, k, c) == RowsWithCell(recs[..|recs| - 1], k, c) +
      (if KeyOf(recs[|recs| - 1].key) == Some(k) && recs[|recs| - 1].val == c then {|recs| - 1} else {})
  {
    var init := recs[..|recs| - 1];
    assert forall i :: 0 <= i < |init| ==> init[i] == recs[i];
  }

  /** The integers of the non-null cells, or `None` when one of them is text. */
  function Nums(vs: seq<Cell>): (r: Option<seq<int>>)
    ensures r.None? <==> exists i :: 0 <= i < |vs| && vs[i].Some? && vs[i].value.Text?
    ensures r.Some? ==> |r.value| == CountNonNull(vs)
    ensures r.Some? ==> forall n :: n in r.value <==> Some(Num(n)) in vs
  {
    if |vs| == 0 then Some([])
    else
      var init := vs[..|vs| - 1];
      assert forall i :: 0 <= i < |init| ==> init[i] == vs[i];
      assert vs == init + [vs[|vs| - 1]];
      match Nums(init)
      case None => None
      case Some(ns) =>
        match vs[|vs| - 1]
        case None => Some(ns)
        case Some(Text(_)) => None
        case Some(Num(n)) => Some(ns + [n])
  }

  /** The integers are the numeric cells with their multiplicities. */
  lemma {:induction false} NumsCounts(vs: seq<Cell>)
    requires Nums(vs).Some?
    ensures forall n :: multiset(Nums(vs).value)[n] == multiset(vs)[Some(Num(n))]
  {
    if |vs| > 0 {
      var init := vs[..|vs| - 1];
      var c := vs[|vs| - 1];
      assert vs == init + [c];
      NumsCounts(init);
      var ns := Nums(init).value;
      assert multiset(vs) == multiset(init) + multiset{c};
      if c.Some? {
        var n := c.value.n;
        assert Nums(vs).value == ns + [n];
        assert multiset(ns + [n]) == multiset(ns) + multiset{n};
        assert c == Some(Num(n));
      } else {
        assert Nums(vs).value == ns;
      }
    }
  }

  function Sum(ns: seq<int>): int {
    if |ns| == 0 then 0 else Sum(ns[..|ns| - 1]) + ns[|ns| - 1]
  }

  function Min(ns: seq<int>): (m: int)
    requires |ns| > 0
    ensures m in ns && forall x :: x in ns ==> m <= x
  {
    if |ns| == 1 then ns[0]
    else
      var rest := Min(ns[1..]);
      assert forall x :: x in ns ==> x == ns[0] || x in ns[1..];
      if ns[0] <= rest then ns[0] else rest
  }

  function Max(ns: seq<int>): (m: int)
    requires |ns| > 0
    ensures m in ns && forall x :: x in ns ==> x <= m
  {
    if |ns| == 1 then ns[0]
    else
      var rest := Max(ns[1..]);
      assert forall x :: x in ns ==> x == ns[0] || x in ns[1..];
      if ns[0] >= rest then ns[0] else rest
  }

  /** One group's reduction; `None` when a numeric reducer meets text. */
  function Reduce(f: AggFunc, vs: seq<Cell>): (r: Option<Out>)
    ensures r.None? <==> !IsCounting(f) && exists i :: 0 <= i < |vs| && vs[i].Some? && vs[i].value.Text?
    ensures f == Contagem ==> r == Some(Whole(CountNonNull(vs)))
    ensures f == ContagemDistinta ==> r == Some(Whole(NUnique(vs)))
    ensures !IsCounting(f) && r.Some? ==> Nums(vs).Some? && r.value == NumericReduce(f, Nums(vs).value)
  {
    if f == Contagem then Some(Whole(CountNonNull(vs)))
    else if f == ContagemDistinta then Some(Whole(NUnique(vs)))
    else
      match Nums(vs)
      case None => None
      case Some(ns) => Some(NumericReduce(f, ns))
  }

  /** `sum`, `mean`, `min` and `max` over the integers of one group: the
      minimum and maximum are members bounding all the others, the mean times
      the count is the sum, and only an empty group has no min, max or mean
      (its sum is 0, as in pandas). */
  function NumericReduce(f: AggFunc, ns: seq<int>): (r: Out)
    requires !IsCounting(f)
    ensures r == Missing <==> f != Soma && |ns| == 0
    ensures f == Soma ==> r.Whole?
    ensures f == Minimo && r.Whole? ==> r.n in ns && forall x :: x in ns ==> r.n <= x
    ensures f == Maximo && r.Whole? ==> r.n in ns && forall x :: x in ns ==> x <= r.n
    ensures f == Media && |ns| > 0 ==> r.Ratio? && r.q * (|ns| as real) == Sum(ns) as real
  {
    if f == Soma then Whole(Sum(ns))
    else if |ns| == 0 then Missing
    else if f == Media then Ratio(Sum(ns) as real / |ns| as real)
    else if f == Minimo then Whole(Min(ns))
    else Whole(Max(ns))
  }

  /** Reduces every group, in key order; `None` if any group fails. */
  function ReduceGroups(f: AggFunc, recs: seq<Rec>, ks: seq<seq<Value>>): (r: Option<seq<AggRow>>)
    ensures r.None? <==> exists i :: 0 <= i < |ks| && Reduce(f, GroupCells(recs, ks[i])).None?
    ensures r.Some? ==> |r.value| == |ks| && forall i :: 0 <= i < |ks| ==>
      r.value[i].key == ks[i] && Reduce(f, GroupCells(recs, ks[i])) == Some(r.value[i].value)
  {
    if |ks| == 0 then Some([])
    else
      match Reduce(f, GroupCells(recs, ks[0]))
      case None => None
      case Some(o) =>
        match ReduceGroups(f, recs, ks[1..])
        case None => None
        case Some(rest) => Some([AggRow(ks[0], o)] + rest)
  }

  /** A name that appears twice in `names`, if any. */
  function Repeated(names: seq<string>): (r: Option<string>)
    ensures r.None? <==> forall i, j :: 0 <= i < j < |names| ==> names[i] != names[j]
    ensures r.Some? ==> exists i, j :: 0 <= i < j < |names| && names[i] == r.value && names[j] == r.value
  {
    if |names| == 0 then None
    else if names[0] in names[1..] then
      assert exists j :: 1 <= j < |names| && names[j] == names[0] by {
        var j :| 0 <= j < |names[1..]| && names[1..][j] == names[0];
        assert names[j + 1] == names[0];
      }
      Some(names[0])
    else
      var r := Repeated(names[1..]);
      assert forall j :: 1 <= j < |names| ==> names[j] == names[1..][j - 1];
      r
  }

  function KeysOf(rows: seq<AggRow>): seq<seq<Value>> {
    seq(|rows|, i requires 0 <= i < |rows| => rows[i].key)
  }

  /** pandas raises a `TypeError` for the pair of reducer `f` and value
      column `y` whatever the rows are: `sum` of dates, or any reducer other
      than a count of a categorical column (its `mean` and `sum` are never
      defined, its `min` and `max` only on an ordered categorical, which
      this model does not distinguish). */
  predicate Refused(t: Table, y: string, f: AggFunc) {
    Find(t, y).Some? && Find(t, y).value < |t.columns| &&
    ((f == Soma && t.columns[Find(t, y).value].dtype == Datetime) ||
     (!IsCounting(f) && t.columns[Find(t, y).value].dtype == CategoricalDtype))
  }

  /** `df.groupby(keys)[y].agg(f).reset_index(name=y)`. */
  function Aggregate(t: Table, keys: seq<string>, y: string, f: AggFunc): (r: Result<AggTable, AggError>)
    requires WellFormed(t)
    ensures |keys| == 0 ==> r == Failure(NoGroupKeys)
    ensures r.Failure? && r.error.MissingColumn? ==>
      (r.error.name in keys || r.error.name == y) && Find(t, r.error.name).None?
    ensures |keys| > 0 && Project(t, keys, y).Failure? ==> r == Failure(Project(t, keys, y).error)
    ensures r.Failure? && r.error.NonNumeric? ==> !IsCounting(f) && r.error.column == y
    ensures r.Failure? && r.error.NonNumeric? ==>
      Project(t, keys, y).Success? && !NoText(t.columns[Find(t, y).value].cells)
    ensures r.Failure? && r.error.NameClash? ==> Repeated(keys + [y]).Some?
    ensures !r.Failure? || !r.error.UnknownFunction?
    ensures r.Failure? && r.error.Unsupported? ==> r.error == Unsupported(y, f) && Refused(t, y, f)
    ensures |keys| > 0 && Project(t, keys, y).Success? && Refused(t, y, f) ==> r == Failure(Unsupported(y, f))
    ensures r.Success? ==> |keys| > 0 && Project(t, keys, y).Success? && Repeated(keys + [y]).None? && !Refused(t, y, f)
    ensures r.Success? ==> r.value.header == keys + [y]
    ensures r.Success? ==> KeysOf(r.value.rows) == GroupKeys(Project(t, keys, y).value)
    ensures r.Success? ==> SortedKeys(KeysOf(r.value.rows))
    ensures r.Success? ==> forall k :: k in KeysOf(r.value.rows) <==>
      exists i :: 0 <= i < t.rows && KeyOf(Project(t, keys, y).value[i].key) == Some(k)
    ensures r.Success? ==> forall i :: 0 <= i < |r.value.rows| ==>
      Reduce(f, GroupCells(Project(t, keys, y).value, r.value.rows[i].key)) == Some(r.value.rows[i].value)
    ensures |keys| > 0 && IsCounting(f) && Project(t, keys, y).Success? && Repeated(keys + [y]).None? ==> r.Success?
  {
    if |keys| == 0 then Failure(NoGroupKeys)
    else
      match Project(t, keys, y)
      case Failure(e) => Failure(e)
      case Success(recs) =>
        if Refused(t, y, f) then Failure(Unsupported(y, f)) else
        var ks := GroupKeys(recs);
        match ReduceGroups(f, recs, ks)
        case None =>
          FailsOnlyOnText(t, keys, y, f);
          Failure(NonNumeric(y, f))
        case Some(rows) =>
          match Repeated(keys + [y])
          case Some(n) => Failure(NameClash(n))
          case None =>
            assert KeysOf(rows) == ks;
            Success(AggTable(keys + [y], rows))
  }

  /** No cell of the list is text. */
  predicate NoText(cells: seq<Cell>) {
    forall i :: 0 <= i < |cells| && cells[i].Some? ==> cells[i].value.Num?
  }

  /** A group fails to reduce only under a numeric reducer, and only when the
      value column holds text. */
  lemma FailsOnlyOnText(t: Table, keys: seq<string>, y: string, f: AggFunc)
    requires WellFormed(t) && Project(t, keys, y).Success?
    requires ReduceGroups(f, Project(t, keys, y).value, GroupKeys(Project(t, keys, y).value)).None?
    ensures !IsCounting(f) && !NoText(t.columns[Find(t, y).value].cells)
  {
    var recs := Project(t, keys, y).value;
    var ks := GroupKeys(recs);
    var g :| 0 <= g < |ks| && Reduce(f, GroupCells(recs, ks[g])).None?;
    var vs := GroupCells(recs, ks[g]);
    var j :| 0 <= j < |vs| && vs[j].Some? && vs[j].value.Text?;
    assert vs[j] in vs;
    var i :| 0 <= i < |recs| && KeyOf(recs[i].key) == Some(ks[g]) && recs[i].val == vs[j];
    var cells := t.columns[Find(t, y).value].cells;
    assert recs[i].val == cells[i];
    assert cells[i].Some? && !cells[i].value.Num?;
  }

  /** Once every named column exists and the value column suits the
      function (a count, or a text-free column), the only errors left are a
      repeated column name in `reset_index` and a reducer the value column's
      type refuses. */
  lemma OnlyClashRemains(t: Table, keys: seq<string>, y: string, f: AggFunc)
    requires WellFormed(t)
    requires |keys| > 0 && Project(t, keys, y).Success?
    requires IsCounting(f) || NoText(t.columns[Find(t, y).value].cells)
    ensures Aggregate(t, keys, y, f).Success? <==> Repeated(keys + [y]).None? && !Refused(t, y, f)
    ensures Aggregate(t, keys, y, f).Failure? ==>
      Aggregate(t, keys, y, f).error.NameClash? || Aggregate(t, keys, y, f).error == Unsupported(y, f)
  {
    var recs := Project(t, keys, y).value;
    if Refused(t, y, f) {
      RefusalFails(t, keys, y, f);
    } else {
      assert forall i :: 0 <= i < |recs| ==> recs[i].val == t.columns[Find(t, y).value].cells[i];
      GroupsReduce(t, recs, y, f);
      ReducedOnlyClashes(t, keys, y, f);
    }
  }

  lemma RefusalFails(t: Table, keys: seq<string>, y: string, f: AggFunc)
    requires WellFormed(t)
    requires |keys| > 0 && Project(t, keys, y).Success? && Refused(t, y, f)
    ensures Aggregate(t, keys, y, f) == Failure(Unsupported(y, f))
  {
  }

  /** Once every group reduces, only `reset_index` can still fail. */
  lemma ReducedOnlyClashes(t: Table, keys: seq<string>, y: string, f: AggFunc)
    requires WellFormed(t)
    requires |keys| > 0 && Project(t, keys, y).Success? && !Refused(t, y, f)
    requires ReduceGroups(f, Project(t, keys, y).value, GroupKeys(Project(t, keys, y).value)).Some?
    ensures Aggregate(t, keys, y, f).Success? <==> Repeated(keys + [y]).None?
    ensures Aggregate(t, keys, y, f).Failure? ==> Aggregate(t, keys, y, f).error.NameClash?
  {
    var recs := Project(t, keys, y).value;
    var rows := ReduceGroups(f, recs, GroupKeys(recs)).value;
    match Repeated(keys + [y])
    case Some(n) =>
      assert Aggregate(t, keys, y, f) == Failure(NameClash(n));
    case None =>
      assert Aggregate(t, keys, y, f) == Success(AggTable(keys + [y], rows));
  }

  /** Every group of a count, or of a text-free value column, reduces. */
  lemma GroupsReduce(t: Table, recs: seq<Rec>, y: string, f: AggFunc)
    requires WellFormed(t) && Find(t, y).Some?
    requires forall i :: 0 <= i < |recs| ==> recs[i].val in t.columns[Find(t, y).value].cells
    requires IsCounting(f) || NoText(t.columns[Find(t, y).value].cells)
    ensures ReduceGroups(f, recs, GroupKeys(recs)).Some?
  {
    var ks := GroupKeys(recs);
    var cells := t.columns[Find(t, y).value].cells;
    forall i | 0 <= i < |ks|
      ensures Reduce(f, GroupCells(recs, ks[i])).Some?
    {
      var vs := GroupCells(recs, ks[i]);
      if !IsCounting(f) {
        forall j | 0 <= j < |vs| && vs[j].Some?
          ensures vs[j].value.Num?
        {
          assert vs[j] in vs;
          var r :| 0 <= r < |recs| && KeyOf(recs[r].key) == Some(ks[i]) && recs[r].val == vs[j];
          assert recs[r].val in cells;
        }
      }
    }
  }
}

=== FILE: classify.dfy ===
/** `col_type`: the semantic type of a column, from dtype predicates checked
    in a fixed priority order and then from cardinality. */
module Classify {
  import opened Wrappers
  import opened Frame

  /** The five labels `col_type` returns: "Numérica", "Booleana",
      "Data/Hora", "Categórica", "Texto". */
  datatype ColType = Numerica | Booleana | DataHora | Categorica | Texto

  /** Below this many distinct non-null values an object column is categorical. */
  const CardinalityLimit: nat := 20

  /** `is_numeric_dtype`. Pandas answers yes for booleans too; the flag
      `boolIsNumeric` makes that choice explicit. */
  predicate IsNumericDtype(d: Dtype, boolIsNumeric: bool) {
    d == Numeric || (boolIsNumeric && d == Bool)
  }

  /** Pandas' own answer for `is_numeric_dtype` on booleans. */
  const PandasBoolIsNumeric: bool := true

  /** Text-like results, the ones that get only the counting aggregations. */
  predicate TextLike(t: ColType) {
    t == Categorica || t == Texto
  }

  /** `col_type(df, col)` for the column `c`. */
  function ColTypeOf(c: Column, boolIsNumeric: bool): (r: ColType)
    ensures r == Numerica <==> IsNumericDtype(c.dtype, boolIsNumeric)
    ensures r == Booleana <==> c.dtype == Bool && !boolIsNumeric
    ensures r == DataHora <==> c.dtype == Datetime
    ensures TextLike(r) <==> c.dtype == CategoricalDtype || c.dtype == Object
    ensures r == Categorica <==>
      c.dtype == CategoricalDtype || (c.dtype == Object && NUnique(c.cells) < CardinalityLimit)
  {
    if IsNumericDtype(c.dtype, boolIsNumeric) then Numerica
    else if c.dtype == Bool then Booleana
    else if c.dtype == Datetime then DataHora
    else if c.dtype == CategoricalDtype || NUnique(c.cells) < CardinalityLimit then Categorica
    else Texto
  }

  /** `col_type(df, name)`: `None` when the frame has no such column. */
  function ColTypeByName(t: Table, name: string, boolIsNumeric: bool): (r: Option<ColType>)
    ensures r.None? <==> forall i :: 0 <= i < |t.columns| ==> t.columns[i].name != name
    ensures r.Some? ==> exists i :: 0 <= i < |t.columns| && t.columns[i].name == name
                                    && r.value == ColTypeOf(t.columns[i], boolIsNumeric)
  {
    match Find(t, name)
    case None => None
    case Some(i) => Some(ColTypeOf(t.columns[i], boolIsNumeric))
  }

  /** A numeric dtype is "Numérica" whatever its cardinality: the dtype check
      runs before the cardinality check. */
  lemma NumericIgnoresCardinality(d: Dtype, a: seq<Cell>, b: seq<Cell>, name: string, boolIsNumeric: bool)
    requires IsNumericDtype(d, boolIsNumeric)
    ensures ColTypeOf(Column(name, d, a), boolIsNumeric) == Numerica
    ensures ColTypeOf(Column(name, d, a), boolIsNumeric) == ColTypeOf(Column(name, d, b), boolIsNumeric)
  {
  }

  /** With pandas' `is_numeric_dtype`, which accepts booleans, the "Booleana"
      branch is shadowed: no column is ever classified "Booleana", and a
      boolean column is "Numérica". */
  lemma BooleanaShadowed(c: Column)
    ensures ColTypeOf(c, PandasBoolIsNumeric) != Booleana
    ensures c.dtype == Bool ==> ColTypeOf(c, PandasBoolIsNumeric) == Numerica
  {
  }

  /** Classification looks only at the dtype and the set of values: it is
      the same for any reordering or repetition of the same cells, in
      particular for any permutation of the rows. */
  lemma ClassifyIgnoresRowOrder(c: Column, d: Column, boolIsNumeric: bool)
    requires c.dtype == d.dtype
    requires forall x :: x in c.cells <==> x in d.cells
    ensures ColTypeOf(c, boolIsNumeric) == ColTypeOf(d, boolIsNumeric)
  {
    NUniqueOfSubset(c.cells, d.cells);
    NUniqueOfSubset(d.cells, c.cells);
  }

  /** Keeping a subset of a column's rows (a filter) can only lower its
      cardinality: a "Categórica" column stays "Categórica", and a column that
      is "Texto" after filtering was "Texto" before. Only the move from
      "Texto" to "Categórica" is possible. */
  lemma FilteringOnlyMovesTowardsCategorical(whole: Column, part: Column, boolIsNumeric: bool)
    requires whole.dtype == part.dtype
    requires forall x :: x in part.cells ==> x in whole.cells
    ensures ColTypeOf(whole, boolIsNumeric) == Categorica ==> ColTypeOf(part, boolIsNumeric) == Categorica
    ensures ColTypeOf(part, boolIsNumeric) == Texto ==> ColTypeOf(whole, boolIsNumeric) == Texto
    ensures ColTypeOf(whole, boolIsNumeric) != Texto ==> ColTypeOf(part, boolIsNumeric) == ColTypeOf(whole, boolIsNumeric)
  {
    NUniqueOfSubset(part.cells, whole.cells);
  }
}

=== FILE: frame.dfy ===
/** The tabular data the dashboard works on: columns of optional cells
    (`None` is a pandas null), an abstract dtype per column, and the
    cell-level counts pandas uses (`count`, `nunique`). */
module Frame {
  import opened Wrappers

  /** A scalar. Numeric, boolean and datetime values are encoded as `Num`
      (booleans as 0/1, timestamps as an integer tick count). */
  datatype Value = Num(n: int) | Text(s: string)

  /** A cell: `None` is a null (NaN/NaT/None). */
  type Cell = Option<Value>

  /** The dtype pandas inferred for a column, as an abstract input. */
  datatype Dtype = Numeric | Bool | Datetime | CategoricalDtype | Object

  datatype Column = Column(name: string, dtype: Dtype, cells: seq<Cell>)

  /** A data frame: a row count and an ordered list of columns. */
  datatype Table = Table(rows: nat, columns: seq<Column>)

  /** Every column has one cell per row. */
  predicate WellFormed(t: Table) {
    forall i :: 0 <= i < |t.columns| ==> |t.columns[i].cells| == t.rows
  }

  /** No two columns share a name (pandas' CSV and Excel readers rename duplicates). */
  predicate DistinctNames(t: Table) {
    forall i, j :: 0 <= i < j < |t.columns| ==> t.columns[i].name != t.columns[j].name
  }

  /** Dtypes whose values are encoded as `Num`. */
  predicate NumericLike(d: Dtype) {
    d == Numeric || d == Bool || d == Datetime
  }

  /** A column of a numeric, boolean or datetime dtype holds no text. */
  predicate DtypeConsistent(t: Table) {
    forall i, j ::
      (0 <= i < |t.columns| && NumericLike(t.columns[i].dtype) &&
       0 <= j < |t.columns[i].cells| && t.columns[i].cells[j].Some?) ==>
        t.columns[i].cells[j].value.Num?
  }

  /** The position of the first column called `name` (`df[name]`), or
      `None` when there is none (pandas raises `KeyError`). */
  function IndexOf(cols: seq<Column>, name: string): (r: Option<nat>)
    ensures r.None? <==> forall j :: 0 <= j < |cols| ==> cols[j].name != name
    ensures r.Some? ==> r.value < |cols| && cols[r.value].name == name
    ensures r.Some? ==> forall j :: 0 <= j < r.value ==> cols[j].name != name
  {
    if |cols| == 0 then None
    else if cols[0].name == name then Some(0)
    else
      match IndexOf(cols[1..], name)
      case None =>
        assert forall j :: 1 <= j < |cols| ==> cols[j] == cols[1..][j - 1];
        None
      case Some(i) =>
        assert forall j :: 1 <= j < |cols| ==> cols[j] == cols[1..][j - 1];
        Some(i + 1)
  }

  function Find(t: Table, name: string): Option<nat> {
    IndexOf(t.columns, name)
  }

  /** The distinct non-null values among `cells`. */
  function Values(cells: seq<Cell>): (r: set<Value>)
    ensures forall v :: v in r <==> Some(v) in cells
  {
    set c | c in cells && c.Some? :: c.value
  }

  /** `Series.nunique()`: the number of distinct non-null values. */
  function NUnique(cells: seq<Cell>): nat {
    |Values(cells)|
  }

  /** `Series.count()`: the number of non-null cells. */
  function CountNonNull(cells: seq<Cell>): (n: nat)
    ensures n <= |cells|
    ensures n == |cells| <==> forall i :: 0 <= i < |cells| ==> cells[i].Some?
    ensures n == 0 <==> forall i :: 0 <= i < |cells| ==> cells[i].None?
    ensures n + multiset(cells)[None] == |cells|
  {
    if |cells| == 0 then 0
    else
      var init := cells[..|cells| - 1];
      assert forall i :: 0 <= i < |init| ==> init[i] == cells[i];
      assert cells == init + [cells[|cells| - 1]];
      CountNonNull(init) + (if cells[|cells| - 1].Some? then 1 else 0)
  }

  /** Adding one cell adds at most its own value to the distinct values. */
  lemma ValuesSnoc(cells: seq<Cell>, c: Cell)
    ensures Values(cells + [c]) == Values(cells) + (if c.Some? then {c.value} else {})
  {
    assert forall x :: x in cells + [c] <==> x in cells || x == c;
  }

  /** Distinct values never outnumber non-null cells: `nunique() <= count()`. */
  lemma {:induction false} NUniqueAtMostCount(cells: seq<Cell>)
    ensures NUnique(cells) <= CountNonNull(cells)
  {
    if |cells| > 0 {
      var init := cells[..|cells| - 1];
      var c := cells[|cells| - 1];
      assert cells == init + [c];
      NUniqueAtMostCount(init);
      ValuesSnoc(init, c);
    }
  }

  /** Cells drawn from a subset of another column's cells have no more
      distinct values, whatever their order or multiplicity. */
  lemma NUniqueOfSubset(a: seq<Cell>, b: seq<Cell>)
    requires forall c :: c in a ==> c in b
    ensures Values(a) <= Values(b)
    ensures NUnique(a) <= NUnique(b)
  {
    assert Values(a) <= Values(b);
    SubsetCardinality(Values(a), Values(b));
  }

  lemma {:induction false} SubsetCardinality<T>(a: set<T>, b: set<T>)
    requires a <= b
    ensures |a| <= |b|
  {
    if a != {} {
      var x :| x in a;
      SubsetCardinality(a - {x}, b - {x});
    }
  }
}

=== FILE: grouping_facts.dfy ===
/** Properties of the grouping in `aggregate_df`: every complete key appears
    once, the groups partition the rows with a complete key (so per-group
    counts and sums add up to the totals), and `nunique` never exceeds
    `count` in any group. */
module GroupingFacts {
  import opened Wrappers
  import opened Frame
  import opened Ordering
  import opened Aggregation

  /** The sum of a per-cell weight over a list of cells. */
  function Weigh(vs: seq<Cell>, w: Cell -> int): int {
    if |vs| == 0 then 0 else Weigh(vs[..|vs| - 1], w) + w(vs[|vs| - 1])
  }

  /** The weight of a cell for `count`: 1 when it is non-null. */
  function PresentWeight(c: Cell): int {
    if c.Some? then 1 else 0
  }

  /** The weight of a cell for `sum`: its integer, 0 for a null. */
  function NumWeight(c: Cell): int {
    if c.Some? && c.value.Num? then c.value.n else 0
  }

  /** The weights of the value cells of the rows whose key is complete. */
  function WeighComplete(recs: seq<Rec>, w: Cell -> int): int {
    if |recs| == 0 then 0
    else
      var last := recs[|recs| - 1];
      WeighComplete(recs[..|recs| - 1], w) + (if KeyOf(last.key).Some? then w(last.val) else 0)
  }

  /** The weights of the value cells of the rows whose key is in `ks`. */
  function WeighIn(recs: seq<Rec>, ks: seq<seq<Value>>, w: Cell -> int): int {
    if |recs| == 0 then 0
    else
      var last := recs[|recs| - 1];
      WeighIn(recs[..|recs| - 1], ks, w) + WeightIn(last, ks, w)
  }

  /** The weights summed group by group over the keys `ks`. */
  function WeighGroups(ks: seq<seq<Value>>, recs: seq<Rec>, w: Cell -> int): int {
    if |ks| == 0 then 0 else Weigh(GroupCells(recs, ks[0]), w) + WeighGroups(ks[1..], recs, w)
  }

  /** The number of rows whose key is complete and whose value is non-null. */
  function CompleteRows(recs: seq<Rec>): nat {
    if |recs| == 0 then 0
    else
      var last := recs[|recs| - 1];
      CompleteRows(recs[..|recs| - 1]) + (if KeyOf(last.key).Some? && last.val.Some? then 1 else 0)
  }

  /** The total of the integer results of an aggregation. */
  function Total(rows: seq<AggRow>): int {
    if |rows| == 0 then 0
    else (if rows[0].value.Whole? then rows[0].value.n else 0) + Total(rows[1..])
  }

  predicate DistinctKeys(ks: seq<seq<Value>>) {
    forall i, j :: 0 <= i < j < |ks| ==> ks[i] != ks[j]
  }

  lemma WeighSnoc(vs: seq<Cell>, c: Cell, w: Cell -> int)
    ensures Weigh(vs + [c], w) == Weigh(vs, w) + w(c)
  {
    assert (vs + [c])[..|vs|] == vs;
  }

  lemma GroupCellsSnoc(recs: seq<Rec>, r: Rec, k: seq<Value>)
    ensures GroupCells(recs + [r], k) ==
      GroupCells(recs, k) + (if KeyOf(r.key) == Some(k) then [r.val] else [])
  {
    assert (recs + [r])[..|recs|] == recs;
  }

  /** Adding a row adds its weight to exactly the one group its key names. */
  lemma {:induction false} WeighGroupsSnoc(ks: seq<seq<Value>>, recs: seq<Rec>, r: Rec, w: Cell -> int)
    requires DistinctKeys(ks)
    ensures WeighGroups(ks, recs + [r], w) == WeighGroups(ks, recs, w) + WeightIn(r, ks, w)
  {
    if |ks| > 0 {
      var k := ks[0];
      var g := GroupCells(recs, k);
      GroupCellsSnoc(recs, r, k);
      if KeyOf(r.key) == Some(k) {
        WeighSnoc(g, r.val, w);
      } else {
        assert g + [] == g;
      }
      assert DistinctKeys(ks[1..]);
      WeighGroupsSnoc(ks[1..], recs, r, w);
      InSplit(ks, KeyOf(r.key));
    }
  }

  /** The weight of a row's value if its key is complete and listed in `ks`. */
  function WeightIn(r: Rec, ks: seq<seq<Value>>, w: Cell -> int): int {
    var k := KeyOf(r.key);
    if k.Some? && k.value in ks then w(r.val) else 0
  }

  lemma InSplit(ks: seq<seq<Value>>, k: Option<seq<Value>>)
    requires |ks| > 0 && DistinctKeys(ks)
    ensures k.Some? && k.value in ks <==> k == Some(ks[0]) || (k.Some? && k.value in ks[1..])
    ensures !(k == Some(ks[0]) && k.value in ks[1..])
  {
    assert ks == [ks[0]] + ks[1..];
  }

  /** Summed group by group, the weights are those of the rows whose key is listed. */
  lemma {:induction false} WeighGroupsIsWeighIn(ks: seq<seq<Value>>, recs: seq<Rec>, w: Cell -> int)
    requires DistinctKeys(ks)
    ensures WeighGroups(ks, recs, w) == WeighIn(recs, ks, w)
  {
    if |recs| == 0 {
      WeighGroupsEmpty(ks, w);
    } else {
      var init := recs[..|recs| - 1];
      var last := recs[|recs| - 1];
      assert recs == init + [last];
      WeighGroupsIsWeighIn(ks, init, w);
      WeighGroupsSnoc(ks, init, last, w);
    }
  }

  lemma {:induction false} WeighGroupsEmpty(ks: seq<seq<Value>>, w: Cell -> int)
    ensures WeighGroups(ks, [], w) == 0
  {
    if |ks| > 0 {
      WeighGroupsEmpty(ks[1..], w);
    }
  }

  /** When `ks` lists every complete key, weighing the listed keys weighs all complete rows. */
  lemma {:induction false} WeighInAllKeys(recs: seq<Rec>, ks: seq<seq<Value>>, w: Cell -> int)
    requires forall i :: 0 <= i < |recs| && KeyOf(recs[i].key).Some? ==> KeyOf(recs[i].key).value in ks
    ensures WeighIn(recs, ks, w) == WeighComplete(recs, w)
  {
    if |recs| > 0 {
      var init := recs[..|recs| - 1];
      assert forall i :: 0 <= i < |init| ==> init[i] == recs[i];
      WeighInAllKeys(init, ks, w);
    }
  }

  /** The groups partition the rows with a complete key: any per-cell weight
      summed group by group equals its sum over those rows. */
  lemma GroupsPartitionRows(recs: seq<Rec>, w: Cell -> int)
    ensures WeighGroups(GroupKeys(recs), recs, w) == WeighComplete(recs, w)
  {
    var ks := GroupKeys(recs);
    forall i, j | 0 <= i < j < |ks|
      ensures ks[i] != ks[j]
    {
      SortedKeysDistinct(ks, i, j);
    }
    WeighGroupsIsWeighIn(ks, recs, w);
    forall i | 0 <= i < |recs| && KeyOf(recs[i].key).Some?
      ensures KeyOf(recs[i].key).value in ks
    {
    }
    WeighInAllKeys(recs, ks, w);
  }

  /** `count` is the weight of non-null cells. */
  lemma {:induction false} CountIsWeight(vs: seq<Cell>)
    ensures CountNonNull(vs) == Weigh(vs, PresentWeight)
  {
    if |vs| > 0 {
      CountIsWeight(vs[..|vs| - 1]);
    }
  }

  /** The sum of a text-free group is the weight of its integers. */
  lemma {:induction false} SumIsWeight(vs: seq<Cell>)
    requires Nums(vs).Some?
    ensures Sum(Nums(vs).value) == Weigh(vs, NumWeight)
  {
    if |vs| > 0 {
      var init := vs[..|vs| - 1];
      NumsSnoc(vs);
      SumIsWeight(init);
      SumSnocWeight(Nums(init).value, vs[|vs| - 1]);
    }
  }

  /** Dropping the last cell of a text-free list drops at most its last integer. */
  lemma NumsSnoc(vs: seq<Cell>)
    requires |vs| > 0 && Nums(vs).Some?
    ensures Nums(vs[..|vs| - 1]).Some?
    ensures var c := vs[|vs| - 1];
      Nums(vs).value == Nums(vs[..|vs| - 1]).value + (if c.Some? then [c.value.n] else [])
  {
  }

  lemma SumSnocWeight(ns: seq<int>, c: Cell)
    requires c.Some? ==> c.value.Num?
    ensures Sum(ns + (if c.Some? then [c.value.n] else [])) == Sum(ns) + NumWeight(c)
  {
    if c.Some? {
      assert (ns + [c.value.n])[..|ns|] == ns;
    } else {
      assert ns + [] == ns;
    }
  }

  /** Rows with a complete key and a non-null value, by weight. */
  lemma {:induction false} CompleteRowsIsWeight(recs: seq<Rec>)
    ensures CompleteRows(recs) == WeighComplete(recs, PresentWeight)
  {
    if |recs| > 0 {
      CompleteRowsIsWeight(recs[..|recs| - 1]);
    }
  }

  /** The per-group results, totalled, are the group-by-group weights. */
  lemma {:induction false} TotalIsWeighGroups(rows: seq<AggRow>, ks: seq<seq<Value>>, recs: seq<Rec>, w: Cell -> int)
    requires |rows| == |ks|
    requires forall i :: 0 <= i < |ks| ==> rows[i].value == Whole(Weigh(GroupCells(recs, ks[i]), w))
    ensures Total(rows) == WeighGroups(ks, recs, w)
  {
    if |rows| > 0 {
      TotalIsWeighGroups(rows[1..], ks[1..], recs, w);
    }
  }

  /** Every complete key of the input appears in exactly one result row. */
  lemma EachKeyOnce(t: Table, keys: seq<string>, y: string, f: AggFunc)
    requires WellFormed(t)
    requires Aggregate(t, keys, y, f).Success?
    ensures var rows := Aggregate(t, keys, y, f).value.rows;
      forall i, j :: 0 <= i < j < |rows| ==> rows[i].key != rows[j].key
    ensures var rows := Aggregate(t, keys, y, f).value.rows;
      forall i :: 0 <= i < t.rows && KeyOf(Project(t, keys, y).value[i].key).Some? ==>
        exists j :: 0 <= j < |rows| && rows[j].key == KeyOf(Project(t, keys, y).value[i].key).value
  {
    var rows := Aggregate(t, keys, y, f).value.rows;
    var ks := KeysOf(rows);
    forall i, j | 0 <= i < j < |rows|
      ensures rows[i].key != rows[j].key
    {
      SortedKeysDistinct(ks, i, j);
    }
    forall i | 0 <= i < t.rows && KeyOf(Project(t, keys, y).value[i].key).Some?
      ensures exists j :: 0 <= j < |rows| && rows[j].key == KeyOf(Project(t, keys, y).value[i].key).value
    {
      var k := KeyOf(Project(t, keys, y).value[i].key).value;
      assert k in ks;
      var j :| 0 <= j < |ks| && ks[j] == k;
    }
  }

  /** "Contagem": the per-group counts add up to the number of rows whose
      key and value are both non-null. */
  lemma CountsAddUp(t: Table, keys: seq<string>, y: string)
    requires WellFormed(t)
    requires Aggregate(t, keys, y, Contagem).Success?
    ensures Total(Aggregate(t, keys, y, Contagem).value.rows) == CompleteRows(Project(t, keys, y).value)
  {
    var recs := Project(t, keys, y).value;
    var rows := Aggregate(t, keys, y, Contagem).value.rows;
    var ks := GroupKeys(recs);
    assert KeysOf(rows) == ks;
    forall i | 0 <= i < |ks|
      ensures rows[i].value == Whole(Weigh(GroupCells(recs, ks[i]), PresentWeight))
    {
      assert rows[i].key == KeysOf(rows)[i];
      CountIsWeight(GroupCells(recs, ks[i]));
    }
    TotalIsWeighGroups(rows, ks, recs, PresentWeight);
    GroupsPartitionRows(recs, PresentWeight);
    CompleteRowsIsWeight(recs);
  }

  /** "Soma": the per-group sums add up to the sum of the values of all rows
      whose key is complete (nulls count as nothing). */
  lemma SumsAddUp(t: Table, keys: seq<string>, y: string)
    requires WellFormed(t)
    requires Aggregate(t, keys, y, Soma).Success?
    ensures Total(Aggregate(t, keys, y, Soma).value.rows) == WeighComplete(Project(t, keys, y).value, NumWeight)
  {
    var recs := Project(t, keys, y).value;
    var rows := Aggregate(t, keys, y, Soma).value.rows;
    var ks := GroupKeys(recs);
    assert KeysOf(rows) == ks;
    forall i | 0 <= i < |ks|
      ensures rows[i].value == Whole(Weigh(GroupCells(recs, ks[i]), NumWeight))
    {
      assert rows[i].key == KeysOf(rows)[i];
      var vs := GroupCells(recs, ks[i]);
      assert Reduce(Soma, vs) == Some(rows[i].value);
      SumIsWeight(vs);
    }
    TotalIsWeighGroups(rows, ks, recs, NumWeight);
    GroupsPartitionRows(recs, NumWeight);
  }

  /** "Contagem distinta" never exceeds "Contagem" in any group; both succeed
      together and list the same groups. */
  lemma DistinctAtMostCount(t: Table, keys: seq<string>, y: string)
    requires WellFormed(t)
    requires Aggregate(t, keys, y, Contagem).Success?
    ensures Aggregate(t, keys, y, ContagemDistinta).Success?
    ensures var c := Aggregate(t, keys, y, Contagem).value.rows;
      var d := Aggregate(t, keys, y, ContagemDistinta).value.rows;
      |c| == |d| && forall i :: 0 <= i < |c| ==>
        c[i].key == d[i].key && c[i].value.Whole? && d[i].value.Whole? && d[i].value.n <= c[i].value.n
  {
    var recs := Project(t, keys, y).value;
    var c := Aggregate(t, keys, y, Contagem).value.rows;
    var d := Aggregate(t, keys, y, ContagemDistinta).value.rows;
    assert KeysOf(c) == KeysOf(d);
    forall i | 0 <= i < |c|
      ensures c[i].key == d[i].key && c[i].value.Whole? && d[i].value.Whole? && d[i].value.n <= c[i].value.n
    {
      assert c[i].key == KeysOf(c)[i] && d[i].key == KeysOf(d)[i];
      NUniqueAtMostCount(GroupCells(recs, c[i].key));
    }
  }

  /** An empty frame aggregates to a table with no rows once its columns
      exist and no name repeats: there is no group for a reducer to fail on,
      and only the `sum` of a date column is refused up front. */
  lemma EmptyInEmptyOut(t: Table, keys: seq<string>, y: string, f: AggFunc)
    requires WellFormed(t) && t.rows == 0
    requires |keys| > 0 && Project(t, keys, y).Success? && Repeated(keys + [y]).None?
    ensures Aggregate(t, keys, y, f).Success? <==> !Refused(t, y, f)
    ensures Aggregate(t, keys, y, f).Success? ==> Aggregate(t, keys, y, f).value.rows == []
  {
    var recs := Project(t, keys, y).value;
    assert recs == [];
    assert GroupKeys(recs) == [];
    if !Refused(t, y, f) {
      assert ReduceGroups(f, recs, []) == Some([]);
      assert Aggregate(t, keys, y, f) == Success(AggTable(keys + [y], []));
    }
  }
}

=== FILE: labels.dfy ===
/** The display labels of the column pickers: `format_cols` renders each
    column as `"name (Type)"`, and `name` recovers the column from a label. */
module Labels {
  import opened Wrappers
  import opened Frame
  import opened Classify

  /** The label `col_type` returns for each type. */
  function TypeName(t: ColType): string {
    match t
    case Numerica => "Numérica"
    case Booleana => "Booleana"
    case DataHora => "Data/Hora"
    case Categorica => "Categórica"
    case Texto => "Texto"
  }

  /** No type label contains a space or a parenthesis. */
  predicate Plain(s: string) {
    forall j :: 0 <= j < |s| ==> s[j] != ' ' && s[j] != '(' && s[j] != ')'
  }

  lemma TypeNamePlain(t: ColType)
    ensures Plain(TypeName(t))
    ensures |TypeName(t)| > 0
  {
  }

  /** The five labels are pairwise different. */
  lemma TypeNameInjective(t: ColType, u: ColType)
    requires TypeName(t) == TypeName(u)
    ensures t == u
  {
  }

  /** One entry of `format_cols`: `f"{c} ({t})"`. */
  function FormatLabel(c: string, t: ColType): string {
    c + " (" + TypeName(t) + ")"
  }

  /** `format_cols(df)`: one label per column, in column order. */
  function FormatCols(t: Table, boolIsNumeric: bool): (r: seq<string>)
    ensures |r| == |t.columns|
    ensures forall i :: 0 <= i < |r| ==>
      r[i] == FormatLabel(t.columns[i].name, ColTypeOf(t.columns[i], boolIsNumeric))
  {
    seq(|t.columns|, i requires 0 <= i < |t.columns| =>
      FormatLabel(t.columns[i].name, ColTypeOf(t.columns[i], boolIsNumeric)))
  }

  /** The separator `" ("` starts at position `i` of `s`. */
  predicate SepAt(s: string, i: int) {
    0 <= i && i + 1 < |s| && s[i] == ' ' && s[i + 1] == '('
  }

  predicate HasSep(s: string) {
    exists i :: 0 <= i < |s| && SepAt(s, i)
  }

  /** `name(label)`, i.e. `label.split(" (")[0]`: the part of the label before
      the FIRST `" ("`, or the whole label when it has none. */
  function Name(lab: string): (r: string)
    ensures |r| <= |lab| && r == lab[..|r|]
    ensures forall i :: 0 <= i < |r| ==> !SepAt(lab, i)
    ensures r == lab || SepAt(lab, |r|)
  {
    if |lab| < 2 then lab
    else if lab[0] == ' ' && lab[1] == '(' then ""
    else
      var rest := Name(lab[1..]);
      assert forall i :: 1 <= i ==> (SepAt(lab, i) <==> SepAt(lab[1..], i - 1));
      [lab[0]] + rest
  }

  /** `name` cuts the label at its first separator. */
  lemma NameStopsAtFirstSep(lab: string, k: int)
    requires SepAt(lab, k)
    requires forall i :: 0 <= i < k ==> !SepAt(lab, i)
    ensures Name(lab) == lab[..k]
  {
  }

  /** A column named "Receita (R$)": the first-separator `name` reads its
      label back as "Receita", while the last-separator reading recovers it. */
  lemma ReceitaLosesItsUnit(c: string)
    requires c == "Receita (R$)"
    ensures Name(FormatLabel(c, Numerica)) == "Receita"
    ensures NameLast(FormatLabel(c, Numerica)) == c
  {
    var l := FormatLabel(c, Numerica);
    assert l[..|c|] == c;
    assert SepAt(l, 7);
    assert forall i :: 0 <= i < 7 ==> !SepAt(l, i);
    NameStopsAtFirstSep(l, 7);
    assert l[..7] == "Receita";
    NameLastRoundTrip(c, Numerica);
  }

  /** The largest `i < k` at which `" ("` starts in `s`. */
  function LastSepBefore(s: string, k: nat): (r: Option<nat>)
    ensures r.None? <==> forall i :: 0 <= i < k ==> !SepAt(s, i)
    ensures r.Some? ==> r.value < k && SepAt(s, r.value)
    ensures r.Some? ==> forall i :: r.value < i < k ==> !SepAt(s, i)
  {
    if k == 0 then None
    else if SepAt(s, k - 1) then Some(k - 1)
    else LastSepBefore(s, k - 1)
  }

  /** The corrected `name`, `label.rsplit(" (", 1)[0]`: the part of the label
      before the LAST `" ("`, or the whole label when it has none. */
  function NameLast(lab: string): (r: string)
    ensures |r| <= |lab| && r == lab[..|r|]
    ensures forall i :: |r| < i ==> !SepAt(lab, i)
    ensures r == lab <==> !HasSep(lab)
    ensures r != lab ==> SepAt(lab, |r|)
  {
    match LastSepBefore(lab, |lab|)
    case None => lab
    case Some(i) => lab[..i]
  }

  /** Where the separator can sit in a rendered label: exactly where `c`
      has one, and right after `c`. */
  lemma SepInLabel(c: string, t: ColType, i: int)
    ensures i < |c| - 1 ==> (SepAt(FormatLabel(c, t), i) <==> SepAt(c, i))
    ensures |c| - 1 <= i && i != |c| ==> !SepAt(FormatLabel(c, t), i)
    ensures SepAt(FormatLabel(c, t), |c|)
  {
    var l := FormatLabel(c, t);
    var n := TypeName(t);
    TypeNamePlain(t);
    assert l[..|c|] == c;
    assert l[|c|] == ' ' && l[|c| + 1] == '(';
    if |c| + 1 < i < |l| - 1 {
      assert l[i] == n[i - |c| - 2];
    }
    if i == |l| - 1 {
      assert l[i] == ')';
    }
  }

  /** `name` undoes `format_cols` exactly when the column name contains no
      `" ("`; otherwise it returns a strictly shorter prefix. */
  lemma NameRoundTripIff(c: string, t: ColType)
    ensures Name(FormatLabel(c, t)) == c <==> !HasSep(c)
  {
    var l := FormatLabel(c, t);
    var r := Name(l);
    SepInLabel(c, t, |c|);
    if HasSep(c) {
      var i :| SepAt(c, i);
      assert SepAt(c, i);
      SepInLabel(c, t, i);
      assert SepAt(l, i);
      assert |r| <= i < |c|;
      assert r != c;
    } else {
      forall i | 0 <= i < |c|
        ensures !SepAt(l, i)
      {
        SepInLabel(c, t, i);
      }
      assert |r| == |c|;
      assert l[..|c|] == c;
    }
  }

  /** The corrected `name` undoes `format_cols` for every column name. */
  lemma NameLastRoundTrip(c: string, t: ColType)
    ensures NameLast(FormatLabel(c, t)) == c
  {
    var l := FormatLabel(c, t);
    var r := NameLast(l);
    SepInLabel(c, t, |c|);
    assert HasSep(l);
    assert SepAt(l, |r|);
    SepInLabel(c, t, |r|);
    assert l[..|c|] == c;
  }

  /** The name read from a label is never longer than the label, and the
      first-separator reading is never longer than the last-separator one. */
  lemma NamesAreShorter(lab: string)
    ensures |Name(lab)| <= |lab| && |NameLast(lab)| <= |lab|
    ensures |Name(lab)| <= |NameLast(lab)|
  {
    if HasSep(lab) {
      var r := NameLast(lab);
      assert SepAt(lab, |r|);
    }
  }

  /** `p` occurs as a substring of `s` (Python's `p in s`). */
  predicate Occurs(p: string, s: string) {
    exists i :: 0 <= i <= |s| && OccursAt(p, s, i)
  }

  predicate OccursAt(p: string, s: string, i: int) {
    0 <= i && i + |p| <= |s| && s[i..i + |p|] == p
  }

  /** The substring the option filters look for, e.g. `"(Texto)"`. */
  function Marker(t: ColType): string {
    "(" + TypeName(t) + ")"
  }

  /** The characters of a rendered label, region by region. */
  lemma LabelChars(c: string, t: ColType)
    ensures |FormatLabel(c, t)| == |c| + |TypeName(t)| + 3
    ensures FormatLabel(c, t)[..|c|] == c
    ensures FormatLabel(c, t)[|c|] == ' ' && FormatLabel(c, t)[|c| + 1] == '('
    ensures forall j :: 0 <= j < |TypeName(t)| ==> FormatLabel(c, t)[|c| + 2 + j] == TypeName(t)[j]
    ensures FormatLabel(c, t)[|c| + |TypeName(t)| + 2] == ')'
  {
  }

  /** The characters of a marker: a `'('`, then the type label, then a `')'`;
      none of them is a space. */
  lemma MarkerChars(u: ColType)
    ensures |Marker(u)| == |TypeName(u)| + 2
    ensures Marker(u)[0] == '('
    ensures forall j :: 0 <= j < |Marker(u)| ==> Marker(u)[j] != ' '
  {
    TypeNamePlain(u);
    var m := Marker(u);
    forall j | 0 <= j < |m|
      ensures m[j] != ' '
    {
      if 0 < j < |m| - 1 {
        assert m[j] == TypeName(u)[j - 1];
      }
    }
  }

  /** A marker cannot start inside the column name and run past its end. */
  lemma MarkerNotAcrossName(c: string, t: ColType, u: ColType, i: int)
    requires i <= |c| < i + |Marker(u)|
    ensures !OccursAt(Marker(u), FormatLabel(c, t), i)
  {
    var l := FormatLabel(c, t);
    var m := Marker(u);
    LabelChars(c, t);
    MarkerChars(u);
    if 0 <= i && i + |m| <= |l| {
      assert l[i..i + |m|][|c| - i] == l[|c|] == ' ';
      assert m[|c| - i] != ' ';
    }
  }

  /** A marker starting at the label's own `'('` is the label's own type. */
  lemma MarkerAtTypeIsOwnType(c: string, t: ColType, u: ColType)
    requires OccursAt(Marker(u), FormatLabel(c, t), |c| + 1)
    ensures u == t
  {
    var l := FormatLabel(c, t);
    var m := Marker(u);
    var n := TypeName(t);
    var k := TypeName(u);
    LabelChars(c, t);
    TypeNamePlain(t);
    assert forall j :: 0 <= j < |m| ==> m[j] == l[|c| + 1 + j];
    assert l[|c| + 2 + |k|] == m[|k| + 1] == ')';
    assert |k| == |n|;
    assert forall j :: 0 <= j < |k| ==> k[j] == m[j + 1] == l[|c| + 2 + j];
    assert k == n;
    TypeNameInjective(t, u);
  }

  /** No marker starts inside the type label or at its closing parenthesis. */
  lemma MarkerNotInsideType(c: string, t: ColType, u: ColType, i: int)
    requires i >= |c| + 2
    ensures !OccursAt(Marker(u), FormatLabel(c, t), i)
  {
    var l := FormatLabel(c, t);
    var m := Marker(u);
    LabelChars(c, t);
    TypeNamePlain(t);
    MarkerChars(u);
    if i + |m| <= |l| {
      assert l[i] != '(' by {
        if i < |l| - 1 {
          assert l[i] == TypeName(t)[i - |c| - 2];
        }
      }
      assert l[i..i + |m|][0] == l[i];
    }
  }

  /** A label is its column name, a space, and its own marker. */
  lemma LabelIsNameSpaceMarker(c: string, t: ColType)
    ensures FormatLabel(c, t) == c + " " + Marker(t)
  {
  }

  /** The label's own type marker, and any marker inside the name, occur in the label. */
  lemma MarkerInLabelIf(c: string, t: ColType, u: ColType)
    requires u == t || Occurs(Marker(u), c)
    ensures Occurs(Marker(u), FormatLabel(c, t))
  {
    var l := FormatLabel(c, t);
    var m := Marker(u);
    LabelIsNameSpaceMarker(c, t);
    if u == t {
      assert l[|c| + 1..] == m;
      assert OccursAt(m, l, |c| + 1);
    } else {
      var i :| 0 <= i <= |c| && OccursAt(m, c, i);
      assert l[..|c|] == c;
      assert l[i..i + |m|] == c[i..i + |m|];
      assert OccursAt(m, l, i);
    }
  }

  /** Any other occurrence of a marker in a label lies inside the name. */
  lemma MarkerInLabelOnlyIf(c: string, t: ColType, u: ColType)
    requires Occurs(Marker(u), FormatLabel(c, t))
    ensures u == t || Occurs(Marker(u), c)
  {
    var l := FormatLabel(c, t);
    var m := Marker(u);
    var i :| 0 <= i <= |l| && OccursAt(m, l, i);
    if i + |m| <= |c| {
      assert c[i..i + |m|] == l[i..i + |m|];
      assert OccursAt(m, c, i);
    } else if i <= |c| {
      MarkerNotAcrossName(c, t, u, i);
    } else if i == |c| + 1 {
      MarkerAtTypeIsOwnType(c, t, u);
    } else {
      MarkerNotInsideType(c, t, u, i);
    }
  }

  /** A marker occurs in a rendered label exactly when the label's own type
      is that type or the column NAME already contains the marker. */
  lemma MarkerInLabel(c: string, t: ColType, u: ColType)
    ensures Occurs(Marker(u), FormatLabel(c, t)) <==> u == t || Occurs(Marker(u), c)
  {
    if u == t || Occurs(Marker(u), c) {
      MarkerInLabelIf(c, t, u);
    }
    if Occurs(Marker(u), FormatLabel(c, t)) {
      MarkerInLabelOnlyIf(c, t, u);
    }
  }

  /** A column name without a `'('` never contains a marker. */
  lemma NoParenNoMarker(c: string, u: ColType)
    requires forall j :: 0 <= j < |c| ==> c[j] != '('
    ensures !Occurs(Marker(u), c)
  {
    assert forall i :: OccursAt(Marker(u), c, i) ==> c[i] == c[i..i + |Marker(u)|][0];
  }
}

=== FILE: menus.dfy ===
/** The pickers of the chart and table screens and the tables they lead to:
    which column labels each menu offers, which aggregation functions go
    with a value column, and the group-by each screen runs on the choices. */
module Menus {
  import opened Wrappers
  import opened Frame
  import opened Classify
  import opened Labels
  import opened Aggregation

  /** Strictly ascending positions. */
  predicate Ascending(ix: seq<int>) {
    forall i, j :: 0 <= i < j < |ix| ==> ix[i] < ix[j]
  }

  /** Every position moved one further on. */
  function Shift(ix: seq<int>): (r: seq<int>)
    ensures |r| == |ix| && forall j :: 0 <= j < |ix| ==> r[j] == ix[j] + 1
  {
    seq(|ix|, j requires 0 <= j < |ix| => ix[j] + 1)
  }

  /** Putting position 0 (or nothing) before a shifted ascending list of
      positions keeps it ascending and adds exactly that position. */
  lemma ConsShift(h: seq<int>, rest: seq<int>)
    requires h == [] || h == [0]
    requires Ascending(rest) && forall i :: i in rest ==> 0 <= i
    ensures Ascending(h + Shift(rest))
    ensures forall i :: i in h + Shift(rest) <==> i in h || i - 1 in rest
  {
    ShiftMembers(rest);
    ShiftAscending(h, rest);
  }

  /** The shifted list holds exactly the successors of the original positions. */
  lemma ShiftMembers(rest: seq<int>)
    ensures forall i :: i in Shift(rest) <==> i - 1 in rest
  {
    var r := Shift(rest);
    forall i
      ensures i in r <==> i - 1 in rest
    {
      if i in r {
        var j :| 0 <= j < |r| && r[j] == i;
      }
      if i - 1 in rest {
        var j :| 0 <= j < |rest| && rest[j] == i - 1;
        assert r[j] == i;
      }
    }
  }

  /** Position 0 before the shifted positions stays ascending. */
  lemma ShiftAscending(h: seq<int>, rest: seq<int>)
    requires h == [] || h == [0]
    requires Ascending(rest) && forall i :: i in rest ==> 0 <= i
    ensures Ascending(h + Shift(rest))
  {
    var r := Shift(rest);
    var s := h + r;
    forall a, b | 0 <= a < b < |s|
      ensures s[a] < s[b]
    {
      assert s[b] == r[b - |h|];
      assert rest[b - |h|] in rest;
      if a >= |h| {
        assert s[a] == r[a - |h|];
      }
    }
  }

  /** The positions of the columns whose type is in `accept`: each such
      column once, in column order. */
  function AcceptedAt(cols: seq<Column>, accept: set<ColType>, boolIsNumeric: bool): (ix: seq<int>)
    ensures Ascending(ix)
    ensures forall i :: i in ix <==> 0 <= i < |cols| && ColTypeOf(cols[i], boolIsNumeric) in accept
  {
    if |cols| == 0 then []
    else
      var rest := AcceptedAt(cols[1..], accept, boolIsNumeric);
      var h := if ColTypeOf(cols[0], boolIsNumeric) in accept then [0] else [];
      assert forall i :: 1 <= i < |cols| ==> cols[i] == cols[1..][i - 1];
      ConsShift(h, rest);
      h + Shift(rest)
  }

  /** The labels of the columns whose type is in `accept`, in column order. */
  function OptionsOf(cols: seq<Column>, accept: set<ColType>, boolIsNumeric: bool): (r: seq<string>)
    ensures |r| <= |cols|
    ensures forall l :: l in r <==> exists i :: (0 <= i < |cols| &&
      ColTypeOf(cols[i], boolIsNumeric) in accept && l == FormatLabel(cols[i].name, ColTypeOf(cols[i], boolIsNumeric)))
  {
    if |cols| == 0 then []
    else
      var t := ColTypeOf(cols[0], boolIsNumeric);
      var rest := OptionsOf(cols[1..], accept, boolIsNumeric);
      assert forall i :: 1 <= i < |cols| ==> cols[i] == cols[1..][i - 1];
      (if t in accept then [FormatLabel(cols[0].name, t)] else []) + rest
  }

  /** A menu is `format_cols` at the accepted positions, in column order:
      every column of an accepted type exactly once, no other. */
  lemma {:induction false} OptionsInColumnOrder(t: Table, accept: set<ColType>, boolIsNumeric: bool)
    ensures |OptionsOf(t.columns, accept, boolIsNumeric)| == |AcceptedAt(t.columns, accept, boolIsNumeric)|
    ensures forall j :: 0 <= j < |OptionsOf(t.columns, accept, boolIsNumeric)| ==>
      (0 <= AcceptedAt(t.columns, accept, boolIsNumeric)[j] < |t.columns| &&
       OptionsOf(t.columns, accept, boolIsNumeric)[j] ==
         FormatCols(t, boolIsNumeric)[AcceptedAt(t.columns, accept, boolIsNumeric)[j]])
    decreases |t.columns|
  {
    var cols := t.columns;
    if |cols| > 0 {
      var tail := Table(t.rows, cols[1..]);
      OptionsInColumnOrder(tail, accept, boolIsNumeric);
      var ct := ColTypeOf(cols[0], boolIsNumeric);
      var labs := FormatCols(t, boolIsNumeric);
      FormatColsCons(t, boolIsNumeric);
      PickStep(labs, OptionsOf(cols, accept, boolIsNumeric), OptionsOf(cols[1..], accept, boolIsNumeric),
        AcceptedAt(cols, accept, boolIsNumeric), AcceptedAt(cols[1..], accept, boolIsNumeric), ct in accept);
    }
  }

  /** One step of a filter that keeps or drops the first element: if the rest
      is `labs[1..]` at positions `ix1`, the whole is `labs` at the shifted
      positions, with position 0 in front when the first is kept. */
  lemma PickStep(labs: seq<string>, r: seq<string>, rest: seq<string>, ix: seq<int>, ix1: seq<int>, keep: bool)
    requires |labs| > 0
    requires r == (if keep then [labs[0]] else []) + rest
    requires ix == (if keep then [0] else []) + Shift(ix1)
    requires |rest| == |ix1|
    requires forall j :: 0 <= j < |rest| ==> 0 <= ix1[j] < |labs| - 1 && rest[j] == labs[1..][ix1[j]]
    ensures |r| == |ix|
    ensures forall j :: 0 <= j < |r| ==> 0 <= ix[j] < |labs| && r[j] == labs[ix[j]]
  {
    var head := if keep then [labs[0]] else [];
    forall j | 0 <= j < |r|
      ensures 0 <= ix[j] < |labs| && r[j] == labs[ix[j]]
    {
      if j >= |head| {
        var k := j - |head|;
        assert r[j] == rest[k];
        assert ix[j] == ix1[k] + 1;
      }
    }
  }

  /** `format_cols` of a frame is the first column's label, then `format_cols`
      of the remaining columns. */
  lemma FormatColsCons(t: Table, boolIsNumeric: bool)
    requires |t.columns| > 0
    ensures var tail := Table(t.rows, t.columns[1..]);
      FormatCols(t, boolIsNumeric) ==
        [FormatLabel(t.columns[0].name, ColTypeOf(t.columns[0], boolIsNumeric))] + FormatCols(tail, boolIsNumeric) &&
      FormatCols(t, boolIsNumeric)[1..] == FormatCols(tail, boolIsNumeric)
  {
    var tail := Table(t.rows, t.columns[1..]);
    var a := FormatCols(t, boolIsNumeric);
    var b := [FormatLabel(t.columns[0].name, ColTypeOf(t.columns[0], boolIsNumeric))] + FormatCols(tail, boolIsNumeric);
    forall i | 0 <= i < |a|
      ensures a[i] == b[i]
    {
      if i > 0 {
        assert b[i] == FormatCols(tail, boolIsNumeric)[i - 1];
        assert tail.columns[i - 1] == t.columns[i];
      }
    }
    assert a == b;
    assert b[1..] == FormatCols(tail, boolIsNumeric);
  }

  /** All five types. */
  const AllTypes: set<ColType> := {Numerica, Booleana, DataHora, Categorica, Texto}

  /** Accepting every type, the menu is `format_cols` itself: every column,
      in column order (the bar chart's Y menu). */
  lemma {:induction false} AllOptionsAreFormatCols(t: Table, boolIsNumeric: bool)
    ensures OptionsOf(t.columns, AllTypes, boolIsNumeric) == FormatCols(t, boolIsNumeric)
    decreases |t.columns|
  {
    var cols := t.columns;
    if |cols| > 0 {
      var tail := Table(t.rows, cols[1..]);
      AllOptionsAreFormatCols(tail, boolIsNumeric);
      var ct := ColTypeOf(cols[0], boolIsNumeric);
      assert ct in AllTypes;
      FormatColsCons(t, boolIsNumeric);
    }
  }

  /** Every option is one of the labels of `format_cols`. */
  lemma OptionIsLabel(t: Table, accept: set<ColType>, l: string, boolIsNumeric: bool)
    requires l in OptionsOf(t.columns, accept, boolIsNumeric)
    ensures l in FormatCols(t, boolIsNumeric)
  {
    var i :| 0 <= i < |t.columns| && ColTypeOf(t.columns[i], boolIsNumeric) in accept &&
      l == FormatLabel(t.columns[i].name, ColTypeOf(t.columns[i], boolIsNumeric));
    assert FormatCols(t, boolIsNumeric)[i] == l;
  }

  /** X axis of the bar chart, colour of both charts, and the group column of
      the aggregation table: categorical and text columns. */
  const GroupTypes: set<ColType> := {Categorica, Texto}

  /** X axis of the scatter chart: categorical, text and numeric columns. */
  const ScatterXTypes: set<ColType> := {Categorica, Texto, Numerica}

  /** Y axis of the scatter chart and value of the aggregation table. */
  const ValueTypes: set<ColType> := {Numerica}

  /** The functions offered for the bar chart's value column: only the two
      counts for a categorical or text column, all six otherwise. */
  function AggMenu(t: ColType): (r: seq<AggFunc>)
    ensures forall i, j :: 0 <= i < j < |r| ==> r[i] != r[j]
    ensures TextLike(t) ==> r == [Contagem, ContagemDistinta]
  {
    if TextLike(t) then [Contagem, ContagemDistinta]
    else [Media, Soma, Contagem, Minimo, Maximo, ContagemDistinta]
  }

  /** A function is on the menu exactly when it is a count or the column is
      neither categorical nor text. */
  lemma AggMenuOffers(t: ColType, f: AggFunc)
    ensures f in AggMenu(t) <==> IsCounting(f) || !TextLike(t)
  {
    match f
    case Media =>
    case Soma =>
    case Contagem =>
    case ContagemDistinta =>
    case Minimo =>
    case Maximo =>
  }

  /** The menu without the one pair pandas refuses, "Soma" of a date column. */
  function SafeAggMenu(t: ColType): (r: seq<AggFunc>)
    ensures forall i, j :: 0 <= i < j < |r| ==> r[i] != r[j]
    ensures forall f :: f in r <==> f in AggMenu(t) && !(f == Soma && t == DataHora)
  {
    if t == DataHora then [Media, Contagem, Minimo, Maximo, ContagemDistinta] else AggMenu(t)
  }

  /** The fixed function menu of the scatter chart and of the aggregation table. */
  const FixedMenu: seq<AggFunc> := [Media, Soma, Contagem, Minimo, Maximo]

  /** The fixed menu is the numeric menu without "Contagem distinta". */
  lemma FixedMenuLacksDistinct()
    ensures forall f :: f in FixedMenu <==> f in AggMenu(Numerica) && f != ContagemDistinta
  {
  }

  // ---- How a screen reads its pickers ----

  /** The program reads a picked label with `name` (the text before the first
      `" ("`) and builds its column menus with substring tests for the type
      markers, and offers "Soma" for a date column. The corrected reading
      cuts at the last `" ("`, filters on the column's own type and leaves
      "Soma" off a date column's menu. */
  datatype Reading = AsWritten | Corrected

  /** The column name a screen takes from a picked label. */
  function ReadName(rd: Reading, l: string): string {
    if rd == AsWritten then Name(l) else NameLast(l)
  }

  /** The labels a screen offers for the types in `accept`. */
  function Menu(t: Table, rd: Reading, accept: set<ColType>, boolIsNumeric: bool): seq<string> {
    if rd == AsWritten then MarkerOptions(t, accept, boolIsNumeric) else OptionsOf(t.columns, accept, boolIsNumeric)
  }

  /** The bar chart's function menu for a value column of type `ct`. */
  function FuncMenu(rd: Reading, ct: ColType): seq<AggFunc> {
    if rd == AsWritten then AggMenu(ct) else SafeAggMenu(ct)
  }

  /** The frames on which the reading does what the labels promise: every
      frame for the corrected reading; for the program's own reading, the
      frames whose column names hold no `'('`. */
  predicate Faithful(t: Table, rd: Reading) {
    rd == Corrected || NoParens(t)
  }

  /** On such a frame, a label of `format_cols` reads back as its column's name. */
  lemma ReadsAlike(t: Table, rd: Reading, l: string, boolIsNumeric: bool)
    requires Faithful(t, rd)
    requires l in FormatCols(t, boolIsNumeric)
    ensures ReadName(rd, l) == NameLast(l)
    ensures exists i :: 0 <= i < |t.columns| && l == FormatCols(t, boolIsNumeric)[i] && ReadName(rd, l) == t.columns[i].name
  {
    var i :| 0 <= i < |t.columns| && l == FormatCols(t, boolIsNumeric)[i];
    var c := t.columns[i].name;
    var ct := ColTypeOf(t.columns[i], boolIsNumeric);
    NameLastRoundTrip(c, ct);
    if rd == AsWritten {
      assert !HasSep(c) by {
        forall j | 0 <= j < |c|
          ensures !SepAt(c, j)
        {
          if j + 1 < |c| {
            assert c[j + 1] != '(';
          }
        }
      }
      NameRoundTripIff(c, ct);
    }
  }

  /** On such a frame, both readings offer the same menu, in the same order. */
  lemma MenusAlike(t: Table, rd: Reading, accept: set<ColType>, boolIsNumeric: bool)
    requires Faithful(t, rd)
    ensures Menu(t, rd, accept, boolIsNumeric) == OptionsOf(t.columns, accept, boolIsNumeric)
  {
    if rd == AsWritten {
      MarkerOptionsAgree(t, accept, boolIsNumeric);
    }
  }

  /** The bar chart's function menu, decided by the type of the column the
      chosen Y label names; `KeyError` when the label names no column. */
  function BarAggMenu(t: Table, rd: Reading, yl: string, boolIsNumeric: bool): (r: Result<seq<AggFunc>, AggError>)
    ensures r.Failure? <==> Find(t, ReadName(rd, yl)).None?
    ensures r.Failure? ==> r.error == MissingColumn(ReadName(rd, yl))
  {
    match Find(t, ReadName(rd, yl))
    case None => Failure(MissingColumn(ReadName(rd, yl)))
    case Some(i) => Success(FuncMenu(rd, ColTypeOf(t.columns[i], boolIsNumeric)))
  }

  /** Picking the label of column `k` as Y gives the menu for that column's type. */
  lemma BarAggMenuOfLabel(t: Table, rd: Reading, k: int, boolIsNumeric: bool)
    requires DistinctNames(t) && Faithful(t, rd)
    requires 0 <= k < |t.columns|
    ensures BarAggMenu(t, rd, FormatCols(t, boolIsNumeric)[k], boolIsNumeric) ==
      Success(FuncMenu(rd, ColTypeOf(t.columns[k], boolIsNumeric)))
  {
    var yl := FormatCols(t, boolIsNumeric)[k];
    ReadsAlike(t, rd, yl, boolIsNumeric);
    LabelFindsColumn(t, yl, k, boolIsNumeric);
  }

  /** The entry of the colour picker meaning "no colour". */
  const NoColour: string := "(nenhum)"

  /** No column label is the "no colour" entry: every label contains `" ("`. */
  lemma NoColourIsNoLabel(c: string, t: ColType)
    ensures FormatLabel(c, t) != NoColour
  {
    SepInLabel(c, t, |c|);
    assert !SepAt(NoColour, |c|);
  }

  /** The colour column chosen in the colour picker. */
  function ColourOf(rd: Reading, cl: string): (r: Option<string>)
    ensures r.None? <==> cl == NoColour
  {
    if cl == NoColour then None else Some(ReadName(rd, cl))
  }

  /** The group columns of a chart: the X column, then the colour column
      when one is chosen and its name is not the empty string (Python's
      `if color_col:`). */
  function GroupingFor(x: string, colour: Option<string>): (r: seq<string>)
    ensures |r| > 0 && r[0] == x
    ensures |r| == 2 <==> colour.Some? && colour.value != ""
    ensures |r| == 2 ==> r[1] == colour.value
    ensures |r| <= 2
  {
    if colour.Some? && colour.value != "" then [x, colour.value] else [x]
  }

  /** "Gerar gráfico" on the bar chart: `aggregate_df(df, x, y, agg)`, or
      the same aggregation grouped by `[x, color_col]` with a colour. */
  function BarChartTable(t: Table, rd: Reading, xl: string, yl: string, cl: string, f: AggFunc): (r: Result<AggTable, AggError>)
    requires WellFormed(t)
    ensures r.Success? ==> r.value.header == GroupingFor(ReadName(rd, xl), ColourOf(rd, cl)) + [ReadName(rd, yl)]
    ensures r.Success? ==> forall i :: 0 <= i < |r.value.rows| ==>
      |r.value.rows[i].key| == |GroupingFor(ReadName(rd, xl), ColourOf(rd, cl))|
  {
    var keys := GroupingFor(ReadName(rd, xl), ColourOf(rd, cl));
    var r := Aggregate(t, keys, ReadName(rd, yl), f);
    if r.Success? then
      BarRowsHaveFullKeys(t, keys, ReadName(rd, yl), f);
      r
    else r
  }

  /** Every row of an aggregation carries one key value per group column. */
  lemma BarRowsHaveFullKeys(t: Table, keys: seq<string>, y: string, f: AggFunc)
    requires WellFormed(t) && Aggregate(t, keys, y, f).Success?
    ensures var rows := Aggregate(t, keys, y, f).value.rows;
      forall i :: 0 <= i < |rows| ==> |rows[i].key| == |keys|
  {
    var rows := Aggregate(t, keys, y, f).value.rows;
    var recs := Project(t, keys, y).value;
    forall i | 0 <= i < |rows|
      ensures |rows[i].key| == |keys|
    {
      assert rows[i].key == KeysOf(rows)[i];
      assert rows[i].key in KeysOf(rows);
      var j :| 0 <= j < t.rows && KeyOf(recs[j].key) == Some(rows[i].key);
    }
  }

  /** "Gerar gráfico" on the scatter chart, as written: grouped by the X
      column only; the colour column goes to the plot, not to the group-by. */
  function ScatterTable(t: Table, rd: Reading, xl: string, yl: string, f: AggFunc): (r: Result<AggTable, AggError>)
    requires WellFormed(t)
    ensures r.Success? ==> r.value.header == [ReadName(rd, xl), ReadName(rd, yl)]
  {
    Aggregate(t, [ReadName(rd, xl)], ReadName(rd, yl), f)
  }

  /** The scatter chart grouped like the bar chart, by `[x, color]`, so that
      the colour column is a column of the table handed to the plot. */
  function ScatterTableColoured(t: Table, rd: Reading, xl: string, yl: string, cl: string, f: AggFunc): (r: Result<AggTable, AggError>)
    requires WellFormed(t)
    ensures r.Success? ==> r.value.header == GroupingFor(ReadName(rd, xl), ColourOf(rd, cl)) + [ReadName(rd, yl)]
    ensures r.Success? && ColourOf(rd, cl).Some? && ColourOf(rd, cl).value != "" ==> ColourOf(rd, cl).value in r.value.header
  {
    Aggregate(t, GroupingFor(ReadName(rd, xl), ColourOf(rd, cl)), ReadName(rd, yl), f)
  }

  /** As written, a chosen colour other than the X and Y columns is never a
      column of the aggregated table the scatter plot is drawn from. */
  lemma ScatterColourNotInTable(t: Table, rd: Reading, xl: string, yl: string, cl: string, f: AggFunc)
    requires WellFormed(t)
    requires ScatterTable(t, rd, xl, yl, f).Success?
    requires ColourOf(rd, cl).Some? && ColourOf(rd, cl).value != ReadName(rd, xl) && ColourOf(rd, cl).value != ReadName(rd, yl)
    ensures ColourOf(rd, cl).value !in ScatterTable(t, rd, xl, yl, f).value.header
  {
  }

  /** The screen "Tabela de Agregação": the group and value pickers with the
      fixed function menu, or `None` (the warning) when either menu is empty. */
  datatype AggForm = AggForm(groupBy: seq<string>, values: seq<string>, funcs: seq<AggFunc>)

  function ChooseAggForm(t: Table, rd: Reading, boolIsNumeric: bool): (r: Option<AggForm>)
    ensures r.Some? ==> r.value == AggForm(Menu(t, rd, GroupTypes, boolIsNumeric), Menu(t, rd, ValueTypes, boolIsNumeric), FixedMenu)
    ensures Faithful(t, rd) ==> (r.None? <==>
      (forall i :: 0 <= i < |t.columns| ==> ColTypeOf(t.columns[i], boolIsNumeric) !in GroupTypes) ||
      (forall i :: 0 <= i < |t.columns| ==> ColTypeOf(t.columns[i], boolIsNumeric) !in ValueTypes))
  {
    var cat := Menu(t, rd, GroupTypes, boolIsNumeric);
    var num := Menu(t, rd, ValueTypes, boolIsNumeric);
    EmptyMenu(t, rd, GroupTypes, boolIsNumeric);
    EmptyMenu(t, rd, ValueTypes, boolIsNumeric);
    if |cat| == 0 || |num| == 0 then None else Some(AggForm(cat, num, FixedMenu))
  }

  /** A menu is empty exactly when no column has an accepted type. */
  lemma EmptyOptions(cols: seq<Column>, accept: set<ColType>, boolIsNumeric: bool)
    ensures |OptionsOf(cols, accept, boolIsNumeric)| == 0 <==>
      forall i :: 0 <= i < |cols| ==> ColTypeOf(cols[i], boolIsNumeric) !in accept
  {
    var r := OptionsOf(cols, accept, boolIsNumeric);
    if exists i :: 0 <= i < |cols| && ColTypeOf(cols[i], boolIsNumeric) in accept {
      var i :| 0 <= i < |cols| && ColTypeOf(cols[i], boolIsNumeric) in accept;
      assert FormatLabel(cols[i].name, ColTypeOf(cols[i], boolIsNumeric)) in r;
    }
    if |r| > 0 {
      assert r[0] in r;
    }
  }

  /** On a frame the reading handles, a screen's menu is empty exactly when
      no column has an accepted type. */
  lemma EmptyMenu(t: Table, rd: Reading, accept: set<ColType>, boolIsNumeric: bool)
    ensures Faithful(t, rd) ==> (|Menu(t, rd, accept, boolIsNumeric)| == 0 <==>
      forall i :: 0 <= i < |t.columns| ==> ColTypeOf(t.columns[i], boolIsNumeric) !in accept)
  {
    if Faithful(t, rd) {
      MenusAlike(t, rd, accept, boolIsNumeric);
      EmptyOptions(t.columns, accept, boolIsNumeric);
    }
  }

  /** `name(st.selectbox(label, menu))` with entry `k` picked: the name read
      from that entry, or `None` when the menu is empty, where the picker
      yields `None` and `name(None)` raises `AttributeError`. */
  function PickedName(rd: Reading, menu: seq<string>, k: nat): (r: Option<string>)
    requires |menu| == 0 || k < |menu|
    ensures r.None? <==> |menu| == 0
    ensures r.Some? ==> exists l :: l in menu && r.value == ReadName(rd, l)
  {
    if |menu| == 0 then None else Some(ReadName(rd, menu[k]))
  }

  /** The bar chart screen gets past reading its Y and X pickers exactly when
      some column is categorical or text; otherwise it stops with
      `AttributeError` before any button is shown. */
  lemma BarScreenRenders(t: Table, rd: Reading, xk: nat, yk: nat, boolIsNumeric: bool)
    requires Faithful(t, rd)
    requires |Menu(t, rd, GroupTypes, boolIsNumeric)| == 0 || xk < |Menu(t, rd, GroupTypes, boolIsNumeric)|
    requires |t.columns| == 0 || yk < |t.columns|
    ensures |FormatCols(t, boolIsNumeric)| == |t.columns|
    ensures (PickedName(rd, FormatCols(t, boolIsNumeric), yk).Some? &&
             PickedName(rd, Menu(t, rd, GroupTypes, boolIsNumeric), xk).Some?) <==>
      exists i :: 0 <= i < |t.columns| && ColTypeOf(t.columns[i], boolIsNumeric) in GroupTypes
  {
    EmptyMenu(t, rd, GroupTypes, boolIsNumeric);
  }

  /** The scatter chart screen gets past `x = name(xl); y = name(yl)` exactly
      when some column can be X and some column is numeric. */
  lemma ScatterScreenRenders(t: Table, rd: Reading, xk: nat, yk: nat, boolIsNumeric: bool)
    requires Faithful(t, rd)
    requires |Menu(t, rd, ScatterXTypes, boolIsNumeric)| == 0 || xk < |Menu(t, rd, ScatterXTypes, boolIsNumeric)|
    requires |Menu(t, rd, ValueTypes, boolIsNumeric)| == 0 || yk < |Menu(t, rd, ValueTypes, boolIsNumeric)|
    ensures (PickedName(rd, Menu(t, rd, ScatterXTypes, boolIsNumeric), xk).Some? &&
             PickedName(rd, Menu(t, rd, ValueTypes, boolIsNumeric), yk).Some?) <==>
      (exists i :: 0 <= i < |t.columns| && ColTypeOf(t.columns[i], boolIsNumeric) in ScatterXTypes) &&
      (exists j :: 0 <= j < |t.columns| && ColTypeOf(t.columns[j], boolIsNumeric) == Numerica)
  {
    MenuPicks(t, rd, ScatterXTypes, xk, boolIsNumeric);
    MenuPicks(t, rd, ValueTypes, yk, boolIsNumeric);
    assert (exists j :: 0 <= j < |t.columns| && ColTypeOf(t.columns[j], boolIsNumeric) in ValueTypes) ==>
      (exists j :: 0 <= j < |t.columns| && ColTypeOf(t.columns[j], boolIsNumeric) == Numerica);
  }

  /** A picker over an option menu yields a name exactly when some column's
      type is offered. */
  lemma MenuPicks(t: Table, rd: Reading, accept: set<ColType>, k: nat, boolIsNumeric: bool)
    requires Faithful(t, rd)
    requires |Menu(t, rd, accept, boolIsNumeric)| == 0 || k < |Menu(t, rd, accept, boolIsNumeric)|
    ensures PickedName(rd, Menu(t, rd, accept, boolIsNumeric), k).Some? <==>
      exists i :: 0 <= i < |t.columns| && ColTypeOf(t.columns[i], boolIsNumeric) in accept
  {
    EmptyMenu(t, rd, accept, boolIsNumeric);
  }

  /** What "Gerar tabela" stores in the session: the two column names and the function. */
  datatype AggRequest = AggRequest(x: string, y: string, f: AggFunc)

  function Submit(rd: Reading, xl: string, yl: string, f: AggFunc): AggRequest {
    AggRequest(ReadName(rd, xl), ReadName(rd, yl), f)
  }

  /** The screen "show_agg": `df.groupby(x)[y].agg(funcs[agg]).reset_index()`.
      The group and value columns are looked up first; the function table
      there has no "Contagem distinta" (`KeyError`). */
  function ShowAggTable(t: Table, q: AggRequest): (r: Result<AggTable, AggError>)
    requires WellFormed(t)
    ensures Project(t, [q.x], q.y).Failure? ==> r == Failure(Project(t, [q.x], q.y).error)
    ensures Project(t, [q.x], q.y).Success? && q.f == ContagemDistinta ==> r == Failure(UnknownFunction(q.f))
    ensures q.f != ContagemDistinta ==> r == Aggregate(t, [q.x], q.y, q.f)
  {
    match Project(t, [q.x], q.y)
    case Failure(e) => Failure(e)
    case Success(_) =>
      if q.f == ContagemDistinta then Failure(UnknownFunction(q.f))
      else Aggregate(t, [q.x], q.y, q.f)
  }

  /** A label of column `i` names column `i`: the corrected `name` finds it,
      and with distinct column names the lookup stops there. */
  lemma LabelFindsColumn(t: Table, l: string, i: int, boolIsNumeric: bool)
    requires 0 <= i < |t.columns|
    requires l == FormatLabel(t.columns[i].name, ColTypeOf(t.columns[i], boolIsNumeric))
    ensures Find(t, NameLast(l)).Some?
    ensures DistinctNames(t) ==> Find(t, NameLast(l)) == Some(i)
  {
    NameLastRoundTrip(t.columns[i].name, ColTypeOf(t.columns[i], boolIsNumeric));
  }

  /** Every option of a corrected menu names a column of an accepted type. */
  lemma OptionFindsColumn(t: Table, accept: set<ColType>, l: string, boolIsNumeric: bool)
    requires DistinctNames(t)
    requires l in OptionsOf(t.columns, accept, boolIsNumeric)
    ensures Find(t, NameLast(l)).Some?
    ensures ColTypeOf(t.columns[Find(t, NameLast(l)).value], boolIsNumeric) in accept
    ensures FormatCols(t, boolIsNumeric)[Find(t, NameLast(l)).value] == l
  {
    var i :| 0 <= i < |t.columns| && ColTypeOf(t.columns[i], boolIsNumeric) in accept &&
      l == FormatLabel(t.columns[i].name, ColTypeOf(t.columns[i], boolIsNumeric));
    LabelFindsColumn(t, l, i, boolIsNumeric);
  }

  /** Whatever a screen's menu offers names, read back, the column whose
      label was picked, and that column has an accepted type. */
  lemma PickFindsColumn(t: Table, rd: Reading, accept: set<ColType>, l: string, boolIsNumeric: bool)
    requires DistinctNames(t) && Faithful(t, rd)
    requires l in Menu(t, rd, accept, boolIsNumeric)
    ensures Find(t, ReadName(rd, l)).Some?
    ensures ColTypeOf(t.columns[Find(t, ReadName(rd, l)).value], boolIsNumeric) in accept
    ensures FormatCols(t, boolIsNumeric)[Find(t, ReadName(rd, l)).value] == l
  {
    MenusAlike(t, rd, accept, boolIsNumeric);
    OptionIsLabel(t, accept, l, boolIsNumeric);
    ReadsAlike(t, rd, l, boolIsNumeric);
    OptionFindsColumn(t, accept, l, boolIsNumeric);
  }

  /** The colour picker yields no column for "(nenhum)" and otherwise the
      categorical or text column whose label was picked. */
  lemma ColourPickFindsColumn(t: Table, rd: Reading, cl: string, boolIsNumeric: bool)
    requires DistinctNames(t) && Faithful(t, rd)
    requires cl == NoColour || cl in Menu(t, rd, GroupTypes, boolIsNumeric)
    ensures ColourOf(rd, cl).None? <==> cl == NoColour
    ensures ColourOf(rd, cl).Some? ==> (Find(t, ColourOf(rd, cl).value).Some? &&
      ColTypeOf(t.columns[Find(t, ColourOf(rd, cl).value).value], boolIsNumeric) in GroupTypes &&
      FormatCols(t, boolIsNumeric)[Find(t, ColourOf(rd, cl).value).value] == cl)
  {
    if cl != NoColour {
      PickFindsColumn(t, rd, GroupTypes, cl, boolIsNumeric);
    }
  }

  /** A column that is neither categorical nor text holds no text. */
  lemma NonTextTypeHoldsNoText(t: Table, i: int, boolIsNumeric: bool)
    requires DtypeConsistent(t)
    requires 0 <= i < |t.columns| && !TextLike(ColTypeOf(t.columns[i], boolIsNumeric))
    ensures NoText(t.columns[i].cells)
  {
    assert NumericLike(t.columns[i].dtype);
  }

  /** The group columns picked for the bar chart exist. */
  lemma BarKeysFound(t: Table, rd: Reading, xl: string, cl: string, boolIsNumeric: bool)
    requires DistinctNames(t) && Faithful(t, rd)
    requires xl in Menu(t, rd, GroupTypes, boolIsNumeric)
    requires cl == NoColour || cl in Menu(t, rd, GroupTypes, boolIsNumeric)
    ensures var keys := GroupingFor(ReadName(rd, xl), ColourOf(rd, cl));
      forall j :: 0 <= j < |keys| ==> Find(t, keys[j]).Some?
  {
    var keys := GroupingFor(ReadName(rd, xl), ColourOf(rd, cl));
    forall j | 0 <= j < |keys|
      ensures Find(t, keys[j]).Some?
    {
      if j == 0 {
        PickFindsColumn(t, rd, GroupTypes, xl, boolIsNumeric);
      } else {
        assert cl != NoColour && keys[j] == ReadName(rd, cl);
        PickFindsColumn(t, rd, GroupTypes, cl, boolIsNumeric);
      }
    }
  }

  /** The value column picked for the bar chart exists, a function from its
      menu is a count or meets no text, and the corrected menu never pairs
      "Soma" with a date column. */
  lemma BarValueSuits(t: Table, rd: Reading, yl: string, f: AggFunc, boolIsNumeric: bool)
    requires DistinctNames(t) && DtypeConsistent(t) && Faithful(t, rd)
    requires yl in FormatCols(t, boolIsNumeric)
    requires BarAggMenu(t, rd, yl, boolIsNumeric).Success? && f in BarAggMenu(t, rd, yl, boolIsNumeric).value
    ensures Find(t, ReadName(rd, yl)).Some?
    ensures IsCounting(f) || NoText(t.columns[Find(t, ReadName(rd, yl)).value].cells)
    ensures rd == Corrected ==> !Refused(t, ReadName(rd, yl), f)
  {
    var k :| 0 <= k < |t.columns| && yl == FormatCols(t, boolIsNumeric)[k];
    ReadsAlike(t, rd, yl, boolIsNumeric);
    LabelFindsColumn(t, yl, k, boolIsNumeric);
    var ct := ColTypeOf(t.columns[k], boolIsNumeric);
    AggMenuOffers(ct, f);
    if !IsCounting(f) {
      NonTextTypeHoldsNoText(t, k, boolIsNumeric);
    }
  }

  /** Whatever is picked from the bar chart's menus, the table is built or
      fails only because the same column was picked twice or because "Soma"
      was applied to a date column, which only the program's own menu offers. */
  lemma BarChartOnlyClashes(t: Table, rd: Reading, xl: string, yl: string, cl: string, f: AggFunc, boolIsNumeric: bool)
    requires WellFormed(t) && DistinctNames(t) && DtypeConsistent(t) && Faithful(t, rd)
    requires xl in Menu(t, rd, GroupTypes, boolIsNumeric)
    requires yl in FormatCols(t, boolIsNumeric)
    requires cl == NoColour || cl in Menu(t, rd, GroupTypes, boolIsNumeric)
    requires BarAggMenu(t, rd, yl, boolIsNumeric).Success? && f in BarAggMenu(t, rd, yl, boolIsNumeric).value
    ensures var keys := GroupingFor(ReadName(rd, xl), ColourOf(rd, cl));
      BarChartTable(t, rd, xl, yl, cl, f).Success? <==>
        Repeated(keys + [ReadName(rd, yl)]).None? && !Refused(t, ReadName(rd, yl), f)
    ensures BarChartTable(t, rd, xl, yl, cl, f).Failure? ==>
      BarChartTable(t, rd, xl, yl, cl, f).error.NameClash? ||
      BarChartTable(t, rd, xl, yl, cl, f).error == Unsupported(ReadName(rd, yl), f)
    ensures rd == Corrected ==> !Refused(t, ReadName(rd, yl), f)
  {
    var keys := GroupingFor(ReadName(rd, xl), ColourOf(rd, cl));
    var y := ReadName(rd, yl);
    BarKeysFound(t, rd, xl, cl, boolIsNumeric);
    BarValueSuits(t, rd, yl, f, boolIsNumeric);
    assert Project(t, keys, y).Success?;
    OnlyClashRemains(t, keys, y, f);
    assert BarChartTable(t, rd, xl, yl, cl, f) == Aggregate(t, keys, y, f);
  }

  /** The program's bar chart offers "Soma" for every date column, and that
      choice always fails with pandas' `TypeError`. */
  lemma DateSumOffered(t: Table, k: int, xl: string, cl: string, boolIsNumeric: bool)
    requires WellFormed(t) && DistinctNames(t) && NoParens(t)
    requires 0 <= k < |t.columns| && t.columns[k].dtype == Datetime
    requires xl in Menu(t, AsWritten, GroupTypes, boolIsNumeric)
    requires cl == NoColour || cl in Menu(t, AsWritten, GroupTypes, boolIsNumeric)
    ensures BarAggMenu(t, AsWritten, FormatCols(t, boolIsNumeric)[k], boolIsNumeric).Success?
    ensures Soma in BarAggMenu(t, AsWritten, FormatCols(t, boolIsNumeric)[k], boolIsNumeric).value
    ensures BarChartTable(t, AsWritten, xl, FormatCols(t, boolIsNumeric)[k], cl, Soma) ==
      Failure(Unsupported(t.columns[k].name, Soma))
  {
    var yl := FormatCols(t, boolIsNumeric)[k];
    BarAggMenuOfLabel(t, AsWritten, k, boolIsNumeric);
    ReadsAlike(t, AsWritten, yl, boolIsNumeric);
    LabelFindsColumn(t, yl, k, boolIsNumeric);
    BarKeysFound(t, AsWritten, xl, cl, boolIsNumeric);
    var keys := GroupingFor(ReadName(AsWritten, xl), ColourOf(AsWritten, cl));
    var y := ReadName(AsWritten, yl);
    assert y == t.columns[k].name;
    assert Project(t, keys, y).Success?;
    assert Refused(t, y, Soma);
    assert BarChartTable(t, AsWritten, xl, yl, cl, Soma) == Aggregate(t, keys, y, Soma);
  }

  /** A numeric option names a text-free column that holds no dates. */
  lemma ValueOptionHoldsNoText(t: Table, rd: Reading, yl: string, boolIsNumeric: bool)
    requires DistinctNames(t) && DtypeConsistent(t) && Faithful(t, rd)
    requires yl in Menu(t, rd, ValueTypes, boolIsNumeric)
    ensures Find(t, ReadName(rd, yl)).Some?
    ensures NoText(t.columns[Find(t, ReadName(rd, yl)).value].cells)
    ensures t.columns[Find(t, ReadName(rd, yl)).value].dtype != Datetime
    ensures t.columns[Find(t, ReadName(rd, yl)).value].dtype != CategoricalDtype
  {
    PickFindsColumn(t, rd, ValueTypes, yl, boolIsNumeric);
    NonTextTypeHoldsNoText(t, Find(t, ReadName(rd, yl)).value, boolIsNumeric);
  }

  /** A group option and a numeric option name different columns. */
  lemma GroupAndValueDiffer(t: Table, rd: Reading, xl: string, yl: string, boolIsNumeric: bool)
    requires DistinctNames(t) && Faithful(t, rd)
    requires xl in Menu(t, rd, GroupTypes, boolIsNumeric)
    requires yl in Menu(t, rd, ValueTypes, boolIsNumeric)
    ensures Find(t, ReadName(rd, xl)).Some?
    ensures ReadName(rd, xl) != ReadName(rd, yl)
  {
    PickFindsColumn(t, rd, GroupTypes, xl, boolIsNumeric);
    PickFindsColumn(t, rd, ValueTypes, yl, boolIsNumeric);
  }

  /** "Gerar tabela" stores the names of the very columns whose labels were
      picked: the group column a categorical or text one, the value column a
      numeric one. */
  lemma SubmitFindsPicks(t: Table, rd: Reading, xl: string, yl: string, f: AggFunc, boolIsNumeric: bool)
    requires DistinctNames(t) && Faithful(t, rd)
    requires ChooseAggForm(t, rd, boolIsNumeric).Some?
    requires xl in ChooseAggForm(t, rd, boolIsNumeric).value.groupBy
    requires yl in ChooseAggForm(t, rd, boolIsNumeric).value.values
    ensures var q := Submit(rd, xl, yl, f);
      q.f == f && Find(t, q.x).Some? && Find(t, q.y).Some? &&
      FormatCols(t, boolIsNumeric)[Find(t, q.x).value] == xl &&
      FormatCols(t, boolIsNumeric)[Find(t, q.y).value] == yl &&
      ColTypeOf(t.columns[Find(t, q.x).value], boolIsNumeric) in GroupTypes &&
      ColTypeOf(t.columns[Find(t, q.y).value], boolIsNumeric) == Numerica
  {
    PickFindsColumn(t, rd, GroupTypes, xl, boolIsNumeric);
    PickFindsColumn(t, rd, ValueTypes, yl, boolIsNumeric);
  }

  /** The aggregation-table screen never fails on what its menus offer: the
      group and value columns differ (one is categorical or text, the other
      numeric), both exist, and every fixed-menu function suits a numeric column. */
  lemma ShowAggFromMenusSucceeds(t: Table, rd: Reading, xl: string, yl: string, f: AggFunc, boolIsNumeric: bool)
    requires WellFormed(t) && DistinctNames(t) && DtypeConsistent(t) && Faithful(t, rd)
    requires ChooseAggForm(t, rd, boolIsNumeric).Some?
    requires xl in ChooseAggForm(t, rd, boolIsNumeric).value.groupBy
    requires yl in ChooseAggForm(t, rd, boolIsNumeric).value.values
    requires f in ChooseAggForm(t, rd, boolIsNumeric).value.funcs
    ensures ShowAggTable(t, Submit(rd, xl, yl, f)).Success?
  {
    var form := ChooseAggForm(t, rd, boolIsNumeric).value;
    assert form.groupBy == Menu(t, rd, GroupTypes, boolIsNumeric);
    assert form.values == Menu(t, rd, ValueTypes, boolIsNumeric);
    assert f != ContagemDistinta by {
      assert form.funcs == FixedMenu;
    }
    ShowAggSucceeds(t, rd, xl, yl, f, boolIsNumeric);
  }

  lemma ShowAggSucceeds(t: Table, rd: Reading, xl: string, yl: string, f: AggFunc, boolIsNumeric: bool)
    requires WellFormed(t) && DistinctNames(t) && DtypeConsistent(t) && Faithful(t, rd)
    requires xl in Menu(t, rd, GroupTypes, boolIsNumeric)
    requires yl in Menu(t, rd, ValueTypes, boolIsNumeric)
    requires f != ContagemDistinta
    ensures ShowAggTable(t, Submit(rd, xl, yl, f)).Success?
  {
    var x := ReadName(rd, xl);
    var y := ReadName(rd, yl);
    GroupAndValueDiffer(t, rd, xl, yl, boolIsNumeric);
    ValueOptionHoldsNoText(t, rd, yl, boolIsNumeric);
    SingleKeyFound(t, x, y);
    assert !Refused(t, y, f);
    DistinctPair(x, y);
    OnlyClashRemains(t, [x], y, f);
    assert Submit(rd, xl, yl, f) == AggRequest(x, y, f);
  }

  /** Grouping by one existing column, the projection succeeds. */
  lemma SingleKeyFound(t: Table, x: string, y: string)
    requires WellFormed(t) && Find(t, x).Some? && Find(t, y).Some?
    ensures Project(t, [x], y).Success?
  {
    assert forall j :: 0 <= j < |[x]| ==> [x][j] == x;
  }

  lemma DistinctPair(x: string, y: string)
    ensures Repeated([x] + [y]).None? <==> x != y
  {
    var p := [x] + [y];
    assert p[0] == x && p[1] == y && |p| == 2;
  }

  /** The scatter chart fails only when the same column is both X and Y. */
  lemma ScatterOnlyClashes(t: Table, rd: Reading, xl: string, yl: string, f: AggFunc, boolIsNumeric: bool)
    requires WellFormed(t) && DistinctNames(t) && DtypeConsistent(t) && Faithful(t, rd)
    requires xl in Menu(t, rd, ScatterXTypes, boolIsNumeric)
    requires yl in Menu(t, rd, ValueTypes, boolIsNumeric)
    requires f in FixedMenu
    ensures ScatterTable(t, rd, xl, yl, f).Success? <==> ReadName(rd, xl) != ReadName(rd, yl)
    ensures ScatterTable(t, rd, xl, yl, f).Failure? ==> ScatterTable(t, rd, xl, yl, f).error.NameClash?
  {
    var x := ReadName(rd, xl);
    var y := ReadName(rd, yl);
    PickFindsColumn(t, rd, ScatterXTypes, xl, boolIsNumeric);
    ValueOptionHoldsNoText(t, rd, yl, boolIsNumeric);
    SingleKeyFound(t, x, y);
    assert !Refused(t, y, f);
    OnlyClashRemains(t, [x], y, f);
    DistinctPair(x, y);
    assert ScatterTable(t, rd, xl, yl, f) == Aggregate(t, [x], y, f);
  }

  // ---- The option filters as written: substring tests on the labels ----

  /** The label contains the marker `"(T)"` of one of the accepted types. */
  predicate HasMarker(l: string, accept: set<ColType>) {
    exists u :: u in accept && Occurs(Marker(u), l)
  }

  /** The positions of the labels carrying an accepted marker, ascending. */
  function MarkedAt(labels: seq<string>, accept: set<ColType>): (ix: seq<int>)
    ensures Ascending(ix)
    ensures forall i :: i in ix <==> 0 <= i < |labels| && HasMarker(labels[i], accept)
  {
    if |labels| == 0 then []
    else
      var rest := MarkedAt(labels[1..], accept);
      var h := if HasMarker(labels[0], accept) then [0] else [];
      assert forall i :: 1 <= i < |labels| ==> labels[i] == labels[1..][i - 1];
      ConsShift(h, rest);
      h + Shift(rest)
  }

  /** `[o for o in labels if "(T1)" in o or "(T2)" in o ...]`. */
  function FilterByMarkers(labels: seq<string>, accept: set<ColType>): (r: seq<string>)
    ensures |r| <= |labels|
    ensures forall l :: l in r <==> l in labels && HasMarker(l, accept)
  {
    if |labels| == 0 then []
    else
      var rest := FilterByMarkers(labels[1..], accept);
      assert forall l :: l in labels <==> l == labels[0] || l in labels[1..];
      (if HasMarker(labels[0], accept) then [labels[0]] else []) + rest
  }

  /** The filter keeps the labels at the marked positions, in their order. */
  lemma {:induction false} MarkedInOrder(labels: seq<string>, accept: set<ColType>)
    ensures |FilterByMarkers(labels, accept)| == |MarkedAt(labels, accept)|
    ensures forall j :: 0 <= j < |FilterByMarkers(labels, accept)| ==>
      (0 <= MarkedAt(labels, accept)[j] < |labels| &&
       FilterByMarkers(labels, accept)[j] == labels[MarkedAt(labels, accept)[j]])
  {
    if |labels| > 0 {
      MarkedInOrder(labels[1..], accept);
      PickStep(labels, FilterByMarkers(labels, accept), FilterByMarkers(labels[1..], accept),
        MarkedAt(labels, accept), MarkedAt(labels[1..], accept), HasMarker(labels[0], accept));
    }
  }

  /** The menus as the screens build them, from `format_cols`. */
  function MarkerOptions(t: Table, accept: set<ColType>, boolIsNumeric: bool): (r: seq<string>)
    ensures forall l :: l in r <==> exists i :: (0 <= i < |t.columns| &&
      l == FormatLabel(t.columns[i].name, ColTypeOf(t.columns[i], boolIsNumeric)) &&
      (ColTypeOf(t.columns[i], boolIsNumeric) in accept || HasMarker(t.columns[i].name, accept)))
  {
    var r := FilterByMarkers(FormatCols(t, boolIsNumeric), accept);
    forall i | 0 <= i < |t.columns|
      ensures HasMarker(FormatLabel(t.columns[i].name, ColTypeOf(t.columns[i], boolIsNumeric)), accept) <==>
        ColTypeOf(t.columns[i], boolIsNumeric) in accept || HasMarker(t.columns[i].name, accept)
    {
      LabelMarked(t.columns[i].name, ColTypeOf(t.columns[i], boolIsNumeric), accept);
    }
    r
  }

  /** A label carries an accepted marker exactly when its type is accepted or
      its column name already carries one. */
  lemma LabelMarked(c: string, ct: ColType, accept: set<ColType>)
    ensures HasMarker(FormatLabel(c, ct), accept) <==> ct in accept || HasMarker(c, accept)
  {
    forall u | u in accept
      ensures Occurs(Marker(u), FormatLabel(c, ct)) <==> u == ct || Occurs(Marker(u), c)
    {
      MarkerInLabel(c, ct, u);
    }
  }

  /** No column name contains a `'('`. */
  predicate NoParens(t: Table) {
    forall i, j :: 0 <= i < |t.columns| && 0 <= j < |t.columns[i].name| ==> t.columns[i].name[j] != '('
  }

  /** Without parentheses in column names, the substring filter builds the
      very menu the type filter builds: the same labels in the same order. */
  lemma {:induction false} MarkerOptionsAgree(t: Table, accept: set<ColType>, boolIsNumeric: bool)
    requires NoParens(t)
    ensures MarkerOptions(t, accept, boolIsNumeric) == OptionsOf(t.columns, accept, boolIsNumeric)
    decreases |t.columns|
  {
    var cols := t.columns;
    if |cols| > 0 {
      var tail := Table(t.rows, cols[1..]);
      assert NoParens(tail) by {
        assert forall i :: 0 <= i < |tail.columns| ==> tail.columns[i] == cols[i + 1];
      }
      MarkerOptionsAgree(tail, accept, boolIsNumeric);
      var ct := ColTypeOf(cols[0], boolIsNumeric);
      var l0 := FormatLabel(cols[0].name, ct);
      FormatColsCons(t, boolIsNumeric);
      LabelMarked(cols[0].name, ct, accept);
      assert !HasMarker(cols[0].name, accept) by {
        forall u | u in accept
          ensures !Occurs(Marker(u), cols[0].name)
        {
          NoParenNoMarker(cols[0].name, u);
        }
      }
    }
  }

  /** The substring filter offers every column whose NAME carries an
      accepted marker, whatever the column's own type: such a label is in the
      as-written menu and not in the corrected one. */
  lemma MarkerFilterLeaks(t: Table, accept: set<ColType>, i: int, boolIsNumeric: bool)
    requires DistinctNames(t)
    requires 0 <= i < |t.columns|
    requires ColTypeOf(t.columns[i], boolIsNumeric) !in accept
    requires HasMarker(t.columns[i].name, accept)
    ensures var l := FormatLabel(t.columns[i].name, ColTypeOf(t.columns[i], boolIsNumeric));
      l in MarkerOptions(t, accept, boolIsNumeric) && l !in OptionsOf(t.columns, accept, boolIsNumeric)
  {
    var l := FormatLabel(t.columns[i].name, ColTypeOf(t.columns[i], boolIsNumeric));
    if l in OptionsOf(t.columns, accept, boolIsNumeric) {
      OptionFindsColumn(t, accept, l, boolIsNumeric);
      LabelFindsColumn(t, l, i, boolIsNumeric);
      assert false;
    }
  }

  /** Such a column exists: a numeric column named "Total (Texto)". Its label
      carries the marker "(Texto)", so it lands in the bar chart's X menu; and
      the first-separator `name` turns that label into "Total", a column the
      frame does not have. */
  lemma LeakyColumn(t: Table, c: string, l: string)
    requires c == "Total (Texto)" && l == "Total (Texto) (Numérica)"
    requires t == Table(0, [Column(c, Numeric, [])])
    ensures ColTypeOf(t.columns[0], PandasBoolIsNumeric) == Numerica && Numerica !in GroupTypes
    ensures HasMarker(t.columns[0].name, GroupTypes)
    ensures FormatLabel(t.columns[0].name, Numerica) == l
    ensures Name(l) == "Total" && Find(t, Name(l)).None?
  {
    LeakyMarker(c);
    LeakyLabel(c, l);
    LeakyName(l);
    LeakyLookup(t, c);
  }

  lemma LeakyMarker(c: string)
    requires c == "Total (Texto)"
    ensures HasMarker(c, GroupTypes)
  {
    assert OccursAt(Marker(Texto), c, 6);
  }

  lemma LeakyLabel(c: string, l: string)
    requires c == "Total (Texto)" && l == "Total (Texto) (Numérica)"
    ensures FormatLabel(c, Numerica) == l
  {
  }

  /** The first-separator `name` of that label stops after "Total". */
  lemma LeakyName(l: string)
    requires l == "Total (Texto) (Numérica)"
    ensures Name(l) == "Total"
  {
    assert SepAt(l, 5);
    assert forall i :: 0 <= i < 5 ==> !SepAt(l, i);
    NameStopsAtFirstSep(l, 5);
    assert l[..5] == "Total";
  }

  lemma LeakyLookup(t: Table, c: string)
    requires c == "Total (Texto)" && t == Table(0, [Column(c, Numeric, [])])
    ensures Find(t, "Total").None?
  {
  }
}

=== FILE: navigation.dfy ===
/** The screen-navigation state machine: nine named screens and an explicit
    transition table, interpreted the way the `transitions` library does
    (the first entry whose trigger and source match fires; a trigger with no
    matching entry is refused). The library also adds a `to_<state>` trigger
    for every state, fired from anywhere, ahead of the declared entries. */
module Navigation {
  import opened Wrappers

  datatype State =
    | Project | Start | ChooseChart | ChartBar | ChartScatter
    | ChooseAgg | ShowAgg | ChooseMap | MapChoropleth

  datatype Trigger =
    | ToStart | GoChart | Bar | Scatter | Agg | ShowAggregate
    | GoMap | Choropleth | Back | Restart

  /** The source of a transition: one named state, or the wildcard `'*'`. */
  datatype Source = Anywhere | Only(state: State)

  datatype Transition = Transition(trigger: Trigger, source: Source, dest: State)

  /** The declared list of states, in declaration order. */
  const States: seq<State> :=
    [Project, Start, ChooseChart, ChartBar, ChartScatter,
     ChooseAgg, ShowAgg, ChooseMap, MapChoropleth]

  /** The declared transition table, in declaration order. */
  const Transitions: seq<Transition> :=
    [ Transition(ToStart, Only(Project), Start),
      Transition(GoChart, Only(Start), ChooseChart),
      Transition(Bar, Only(ChooseChart), ChartBar),
      Transition(Scatter, Only(ChooseChart), ChartScatter),
      Transition(Agg, Only(ChooseChart), ChooseAgg),
      Transition(ShowAggregate, Only(ChooseAgg), ShowAgg),
      Transition(GoMap, Only(Start), ChooseMap),
      Transition(Choropleth, Only(ChooseMap), MapChoropleth),
      Transition(Back, Anywhere, Start),
      Transition(Restart, Anywhere, Project) ]

  predicate Admits(src: Source, s: State) {
    src.Anywhere? || src.state == s
  }

  /** Whether entry `tr` of a table fires for trigger `t` in state `s`. */
  predicate Fires(tr: Transition, s: State, t: Trigger) {
    tr.trigger == t && Admits(tr.source, s)
  }

  /** Fires trigger `t` in state `s` against `table`: the destination of the
      first matching entry, or `None` when no entry matches. */
  function Fire(table: seq<Transition>, s: State, t: Trigger): Option<State> {
    if |table| == 0 then None
    else if Fires(table[0], s, t) then Some(table[0].dest)
    else Fire(table[1..], s, t)
  }

  /** `Fire` refuses exactly when no entry matches, and otherwise yields the
      destination of the first matching entry. */
  lemma {:induction false} FireIsFirstMatch(table: seq<Transition>, s: State, t: Trigger)
    ensures Fire(table, s, t).None? <==> forall i :: 0 <= i < |table| ==> !Fires(table[i], s, t)
    ensures Fire(table, s, t).Some? ==>
      exists i :: 0 <= i < |table| && Fires(table[i], s, t) && table[i].dest == Fire(table, s, t).value
                  && forall j :: 0 <= j < i ==> !Fires(table[j], s, t)
  {
    if |table| > 0 && !Fires(table[0], s, t) {
      FireIsFirstMatch(table[1..], s, t);
      assert forall i :: 1 <= i < |table| ==> table[i] == table[1..][i - 1];
      if Fire(table, s, t).Some? {
        var i :| 0 <= i < |table[1..]| && Fires(table[1..][i], s, t)
                 && table[1..][i].dest == Fire(table, s, t).value
                 && forall j :: 0 <= j < i ==> !Fires(table[1..][j], s, t);
        assert Fires(table[i + 1], s, t);
      }
    } else if |table| > 0 {
      assert Fires(table[0], s, t);
    }
  }

  /** One step under the declared table alone. */
  function Step(s: State, t: Trigger): Option<State> {
    Fire(Transitions, s, t)
  }

  /** The table the library builds: its automatic entry for `to_start`, from
      any state, ahead of the declared entries. (Its other automatic
      triggers, `to_project`, `to_choose_chart` and so on, are never fired by
      the application.) */
  const MachineTable: seq<Transition> := [Transition(ToStart, Anywhere, Start)] + Transitions

  /** One step of the application's machine. */
  function MachineStep(s: State, t: Trigger): Option<State> {
    Fire(MachineTable, s, t)
  }

  /** The machine agrees with the declared table on every trigger but
      `to_start`, which it fires from every state; from `project`, the only
      state the application fires `to_start` in, both lead to `start`. */
  lemma MachineStepIsStep(s: State, t: Trigger)
    ensures t != ToStart ==> MachineStep(s, t) == Step(s, t)
    ensures MachineStep(s, ToStart) == Some(Start)
    ensures MachineStep(Project, ToStart) == Step(Project, ToStart)
  {
    assert MachineTable[1..] == Transitions;
    StepIsExpected(Project, ToStart);
  }

  /** An independent statement of the table, trigger by trigger: the listed
      source of each non-wildcard trigger and its destination. */
  function Expected(s: State, t: Trigger): Option<State> {
    match t
    case Back => Some(Start)
    case Restart => Some(Project)
    case ToStart => if s == Project then Some(Start) else None
    case GoChart => if s == Start then Some(ChooseChart) else None
    case Bar => if s == ChooseChart then Some(ChartBar) else None
    case Scatter => if s == ChooseChart then Some(ChartScatter) else None
    case Agg => if s == ChooseChart then Some(ChooseAgg) else None
    case ShowAggregate => if s == ChooseAgg then Some(ShowAgg) else None
    case GoMap => if s == Start then Some(ChooseMap) else None
    case Choropleth => if s == ChooseMap then Some(MapChoropleth) else None
  }

  /** The position of each trigger's entry in the table. */
  function EntryOf(t: Trigger): (i: nat)
    ensures i < |Transitions| && Transitions[i].trigger == t
  {
    match t
    case ToStart => 0
    case GoChart => 1
    case Bar => 2
    case Scatter => 3
    case Agg => 4
    case ShowAggregate => 5
    case GoMap => 6
    case Choropleth => 7
    case Back => 8
    case Restart => 9
  }

  /** No trigger appears twice in the table. */
  lemma TriggersUnique()
    ensures forall i, j :: 0 <= i < j < |Transitions| ==>
      Transitions[i].trigger != Transitions[j].trigger
  {
  }

  /** In a table where only entry `k` carries trigger `t`, that entry alone
      decides the step. */
  lemma FireByUniqueEntry(table: seq<Transition>, s: State, t: Trigger, k: nat)
    requires k < |table| && table[k].trigger == t
    requires forall j :: 0 <= j < |table| && j != k ==> table[j].trigger != t
    ensures Fire(table, s, t) == (if Admits(table[k].source, s) then Some(table[k].dest) else None)
  {
    FireIsFirstMatch(table, s, t);
    var r := Fire(table, s, t);
    if r.Some? {
      var i :| 0 <= i < |table| && Fires(table[i], s, t) && table[i].dest == r.value;
      assert i == k;
    } else {
      assert !Fires(table[k], s, t);
    }
  }

  /** A step is decided by the one entry carrying the trigger. */
  lemma StepByEntry(s: State, t: Trigger)
    ensures Step(s, t) ==
      (var e := Transitions[EntryOf(t)]; if Admits(e.source, s) then Some(e.dest) else None)
  {
    TriggersUnique();
    FireByUniqueEntry(Transitions, s, t, EntryOf(t));
  }

  /** The table behaves exactly as the per-trigger reading above. */
  lemma StepIsExpected(s: State, t: Trigger)
    ensures Step(s, t) == Expected(s, t)
  {
    StepByEntry(s, t);
    match t
    case Back =>
    case Restart =>
    case ToStart =>
    case GoChart =>
    case Bar =>
    case Scatter =>
    case Agg =>
    case ShowAggregate =>
    case GoMap =>
    case Choropleth =>
  }

  /** `back` and `restart` carry the wildcard source: they fire from every state. */
  lemma WildcardTriggers(s: State)
    ensures Step(s, Back) == Some(Start)
    ensures Step(s, Restart) == Some(Project)
  {
    StepIsExpected(s, Back);
    StepIsExpected(s, Restart);
  }

  /** The listed source of a non-wildcard trigger. */
  function ListedSource(t: Trigger): State
    requires t != Back && t != Restart
  {
    match t
    case ToStart => Project
    case GoChart | GoMap => Start
    case Bar | Scatter | Agg => ChooseChart
    case ShowAggregate => ChooseAgg
    case Choropleth => ChooseMap
  }

  /** Every other trigger succeeds exactly from its listed source. */
  lemma NonWildcardOnlyFromSource(s: State, t: Trigger)
    requires t != Back && t != Restart
    ensures Step(s, t).Some? <==> s == ListedSource(t)
  {
    StepIsExpected(s, t);
  }

  /** Every destination, and every named source, of the table is a declared state,
      and no trigger appears twice, so the machine is deterministic. */
  lemma TableIsClosed()
    ensures forall i :: 0 <= i < |Transitions| ==> Transitions[i].dest in States
    ensures forall i :: 0 <= i < |Transitions| && Transitions[i].source.Only? ==>
      Transitions[i].source.state in States
    ensures forall i, j :: 0 <= i < j < |Transitions| ==>
      Transitions[i].trigger != Transitions[j].trigger
  {
    TriggersUnique();
  }

  /** Whatever step succeeds lands in a declared state. */
  lemma StepStaysInStates(s: State, t: Trigger)
    requires Step(s, t).Some?
    ensures Step(s, t).value in States
  {
    StepByEntry(s, t);
    TableIsClosed();
    assert Transitions[EntryOf(t)].dest in States;
  }

  /** A table that behaves as the per-trigger reading `Expected`, except
      that `to_start` may also lead to `start` from any state. */
  predicate Interprets(table: seq<Transition>) {
    forall s, t :: Fire(table, s, t) == Expected(s, t) || (t == ToStart && Fire(table, s, t) == Some(Start))
  }

  lemma TransitionsInterpreted()
    ensures Interprets(Transitions)
  {
    forall s, t
      ensures Fire(Transitions, s, t) == Expected(s, t)
    {
      StepIsExpected(s, t);
    }
  }

  lemma MachineInterpreted()
    ensures Interprets(MachineTable)
  {
    forall s, t
      ensures Fire(MachineTable, s, t) == Expected(s, t) || (t == ToStart && Fire(MachineTable, s, t) == Some(Start))
    {
      MachineStepIsStep(s, t);
      StepIsExpected(s, t);
    }
  }

  /** Runs a sequence of triggers from `s` against `table`; `None` as soon
      as one is refused. */
  function RunOn(table: seq<Transition>, s: State, ts: seq<Trigger>): Option<State>
    decreases |ts|
  {
    if |ts| == 0 then Some(s)
    else
      match RunOn(table, s, ts[..|ts| - 1])
      case None => None
      case Some(p) => Fire(table, p, ts[|ts| - 1])
  }

  /** Runs a sequence of triggers through the application's machine. */
  function Run(s: State, ts: seq<Trigger>): Option<State> {
    RunOn(MachineTable, s, ts)
  }

  /** The state a successful non-empty run passes through just before its last trigger. */
  lemma RunLast(table: seq<Transition>, s: State, ts: seq<Trigger>) returns (p: State)
    requires |ts| > 0 && RunOn(table, s, ts).Some?
    ensures RunOn(table, s, ts[..|ts| - 1]) == Some(p)
    ensures Fire(table, p, ts[|ts| - 1]) == RunOn(table, s, ts)
  {
    p := RunOn(table, s, ts[..|ts| - 1]).value;
  }

  /** The one trigger leading into each state other than `start` and `project`. */
  function Incoming(d: State): (t: Trigger)
    requires d != Start && d != Project
    ensures t != Back && t != Restart
  {
    match d
    case ChooseChart => GoChart
    case ChartBar => Bar
    case ChartScatter => Scatter
    case ChooseAgg => Agg
    case ShowAgg => ShowAggregate
    case ChooseMap => GoMap
    case MapChoropleth => Choropleth
  }

  /** A state other than `start` and `project` is entered only by its one
      incoming trigger, fired from that trigger's listed source. */
  lemma OnlyWayIn(p: State, t: Trigger, d: State)
    requires d != Start && d != Project
    requires Step(p, t) == Some(d)
    ensures t == Incoming(d) && p == ListedSource(t)
  {
    StepIsExpected(p, t);
    ExpectedWayIn(p, t, d);
  }

  lemma ExpectedWayIn(p: State, t: Trigger, d: State)
    requires d != Start && d != Project
    requires Expected(p, t) == Some(d)
    ensures t == Incoming(d) && p == ListedSource(t)
  {
    match t
    case Back =>
    case Restart =>
    case ToStart =>
    case GoChart =>
    case Bar =>
    case Scatter =>
    case Agg =>
    case ShowAggregate =>
    case GoMap =>
    case Choropleth =>
  }

  /** The last trigger of a run ending in `d` (not `start` or `project`) is
      `d`'s incoming trigger, and the run before it ends in that trigger's source. */
  lemma EntersOn(table: seq<Transition>, ts: seq<Trigger>, d: State, t: Trigger, src: State)
    requires Interprets(table)
    requires d != Start && d != Project && t == Incoming(d) && src == ListedSource(t)
    requires |ts| > 0 && RunOn(table, Project, ts) == Some(d)
    ensures ts[|ts| - 1] == t && RunOn(table, Project, ts[..|ts| - 1]) == Some(src)
  {
    var p := RunLast(table, Project, ts);
    assert Fire(table, p, ts[|ts| - 1]) == Some(d);
    assert Expected(p, ts[|ts| - 1]) == Some(d);
    ExpectedWayIn(p, ts[|ts| - 1], d);
  }

  lemma {:induction false} ShowAggOnlyViaChooseAggOn(table: seq<Transition>, ts: seq<Trigger>)
    requires Interprets(table)
    requires RunOn(table, Project, ts) == Some(ShowAgg)
    ensures |ts| >= 4
    ensures ts[|ts| - 3..] == [GoChart, Agg, ShowAggregate]
    ensures RunOn(table, Project, ts[..|ts| - 3]) == Some(Start)
  {
    var n := |ts|;
    EntersOn(table, ts, ShowAgg, ShowAggregate, ChooseAgg);
    var q1 := ts[..n - 1];
    EntersOn(table, q1, ChooseAgg, Agg, ChooseChart);
    var q2 := q1[..n - 2];
    EntersOn(table, q2, ChooseChart, GoChart, Start);
    var q3 := q2[..n - 3];
    assert q3 == ts[..n - 3];
    assert |q3| > 0;
    assert ts[n - 3..] == [q2[n - 3], q1[n - 2], ts[n - 1]];
  }

  /** `show_agg` is reached from `project` only through `start`,
      `choose_chart` and `choose_agg`: the last three triggers of any run that
      ends there are `go_chart`, `agg`, `showagg`, the run before them ends in
      `start`, and so at least four triggers are needed. */
  lemma ShowAggOnlyViaChooseAgg(ts: seq<Trigger>)
    requires Run(Project, ts) == Some(ShowAgg)
    ensures |ts| >= 4
    ensures ts[|ts| - 3..] == [GoChart, Agg, ShowAggregate]
    ensures Run(Project, ts[..|ts| - 3]) == Some(Start)
  {
    MachineInterpreted();
    ShowAggOnlyViaChooseAggOn(MachineTable, ts);
  }

  lemma ShowAggReachableOn(table: seq<Transition>)
    requires Interprets(table)
    ensures RunOn(table, Project, [ToStart, GoChart, Agg, ShowAggregate]) == Some(ShowAgg)
  {
    assert [ToStart][..0] == [];
    assert RunOn(table, Project, [ToStart]) == Some(Start);
    assert [ToStart, GoChart][..1] == [ToStart];
    assert RunOn(table, Project, [ToStart, GoChart]) == Some(ChooseChart);
    assert [ToStart, GoChart, Agg][..2] == [ToStart, GoChart];
    assert RunOn(table, Project, [ToStart, GoChart, Agg]) == Some(ChooseAgg);
    assert [ToStart, GoChart, Agg, ShowAggregate][..3] == [ToStart, GoChart, Agg];
  }

  /** The shortest route: `to_start`, `go_chart`, `agg`, `showagg`. */
  lemma ShowAggReachable()
    ensures Run(Project, [ToStart, GoChart, Agg, ShowAggregate]) == Some(ShowAgg)
  {
    MachineInterpreted();
    ShowAggReachableOn(MachineTable);
  }
}

=== FILE: ordering.dfy ===
/** The ascending order pandas' `groupby` (with its default `sort=True`)
    puts group keys in: integers by value, strings lexicographically by code
    point, and key tuples lexicographically. Mixed integer/text keys are
    placed integers first, as pandas' fallback sort does. */
module Ordering {
  import opened Frame

  /** Strict lexicographic order on strings (Python's `str.__lt__`). */
  predicate StrLess(a: string, b: string)
    decreases |a|
  {
    |b| > 0 && (|a| == 0 || a[0] < b[0] || (a[0] == b[0] && StrLess(a[1..], b[1..])))
  }

  predicate ValueLess(a: Value, b: Value) {
    match (a, b)
    case (Num(x), Num(y)) => x < y
    case (Num(_), Text(_)) => true
    case (Text(_), Num(_)) => false
    case (Text(x), Text(y)) => StrLess(x, y)
  }

  /** Strict lexicographic order on key tuples. */
  predicate KeyLess(a: seq<Value>, b: seq<Value>)
    decreases |a|
  {
    |b| > 0 && (|a| == 0 || ValueLess(a[0], b[0]) || (a[0] == b[0] && KeyLess(a[1..], b[1..])))
  }

  lemma {:induction false} StrLessIrreflexive(a: string)
    ensures !StrLess(a, a)
  {
    if |a| > 0 {
      StrLessIrreflexive(a[1..]);
    }
  }

  lemma {:induction false} StrLessTransitive(a: string, b: string, c: string)
    requires StrLess(a, b) && StrLess(b, c)
    ensures StrLess(a, c)
  {
    if |a| > 0 && a[0] == b[0] && b[0] == c[0] {
      StrLessTransitive(a[1..], b[1..], c[1..]);
    }
  }

  lemma {:induction false} StrLessTotal(a: string, b: string)
    requires a != b
    ensures StrLess(a, b) || StrLess(b, a)
  {
    if |a| > 0 && |b| > 0 && a[0] == b[0] {
      assert a == [a[0]] + a[1..] && b == [b[0]] + b[1..];
      StrLessTotal(a[1..], b[1..]);
    }
  }

  lemma ValueLessIrreflexive(a: Value)
    ensures !ValueLess(a, a)
  {
    if a.Text? {
      StrLessIrreflexive(a.s);
    }
  }

  lemma ValueLessTransitive(a: Value, b: Value, c: Value)
    requires ValueLess(a, b) && ValueLess(b, c)
    ensures ValueLess(a, c)
  {
    if a.Text? && b.Text? && c.Text? {
      StrLessTransitive(a.s, b.s, c.s);
    }
  }

  lemma ValueLessTotal(a: Value, b: Value)
    requires a != b
    ensures ValueLess(a, b) || ValueLess(b, a)
  {
    if a.Text? && b.Text? {
      StrLessTotal(a.s, b.s);
    }
  }

  lemma {:induction false} KeyLessIrreflexive(a: seq<Value>)
    ensures !KeyLess(a, a)
  {
    if |a| > 0 {
      ValueLessIrreflexive(a[0]);
      KeyLessIrreflexive(a[1..]);
    }
  }

  lemma {:induction false} KeyLessTransitive(a: seq<Value>, b: seq<Value>, c: seq<Value>)
    requires KeyLess(a, b) && KeyLess(b, c)
    ensures KeyLess(a, c)
  {
    if |a| > 0 {
      if ValueLess(a[0], b[0]) && ValueLess(b[0], c[0]) {
        ValueLessTransitive(a[0], b[0], c[0]);
      } else if a[0] == b[0] && b[0] == c[0] {
        KeyLessTransitive(a[1..], b[1..], c[1..]);
      }
    }
  }

  lemma {:induction false} KeyLessTotal(a: seq<Value>, b: seq<Value>)
    requires a != b
    ensures KeyLess(a, b) || KeyLess(b, a)
  {
    if |a| > 0 && |b| > 0 {
      if a[0] == b[0] {
        assert a == [a[0]] + a[1..] && b == [b[0]] + b[1..];
        KeyLessTotal(a[1..], b[1..]);
      } else {
        ValueLessTotal(a[0], b[0]);
      }
    }
  }

  /** Keys in strictly ascending order (so no key appears twice). */
  predicate SortedKeys(ks: seq<seq<Value>>) {
    forall i, j :: 0 <= i < j < |ks| ==> KeyLess(ks[i], ks[j])
  }

  /** Inserts `k` into an ascending key list unless it is already present. */
  function Insert(ks: seq<seq<Value>>, k: seq<Value>): (r: seq<seq<Value>>)
    requires SortedKeys(ks)
    ensures SortedKeys(r)
    ensures forall x :: x in r <==> x in ks || x == k
  {
    if |ks| == 0 then [k]
    else if k == ks[0] then ks
    else if KeyLess(k, ks[0]) then
      assert forall j :: 0 <= j < |ks| ==> KeyLess(k, ks[j]) by {
        forall j | 0 < j < |ks| {
          KeyLessTransitive(k, ks[0], ks[j]);
        }
      }
      [k] + ks
    else
      KeyLessTotal(k, ks[0]);
      var rest := Insert(ks[1..], k);
      assert forall x :: x in rest ==> KeyLess(ks[0], x) by {
        forall x | x in rest
          ensures KeyLess(ks[0], x)
        {
          if x != k {
            var j :| 1 <= j < |ks| && ks[j] == x;
          }
        }
      }
      assert forall x :: x in ks <==> x == ks[0] || x in ks[1..] by {
        assert ks == [ks[0]] + ks[1..];
      }
      [ks[0]] + rest
  }

  /** Sorted keys are pairwise distinct. */
  lemma SortedKeysDistinct(ks: seq<seq<Value>>, i: nat, j: nat)
    requires SortedKeys(ks) && i < |ks| && j < |ks| && i != j
    ensures ks[i] != ks[j]
  {
    if i < j {
      KeyLessIrreflexive(ks[i]);
    } else {
      KeyLessIrreflexive(ks[j]);
    }
  }
}

=== FILE: wrappers.dfy ===
/** Failure-compatible wrappers shared by every module of the model. */
module Wrappers {

  /** An optional value: `None` stands for a missing cell, a failed lookup
      or a trigger the state machine refuses. */
  datatype Option<+T> = None | Some(value: T) {
    predicate IsFailure() {
      None?
    }

    function PropagateFailure<U>(): Option<U>
      requires None?
    {
      None
    }

    function Extract(): T
      requires Some?
    {
      value
    }
  }

  /** A value or an error, for the operations where pandas raises. */
  datatype Result<+R, +E> = Success(value: R) | Failure(error: E) {
    predicate IsFailure() {
      Failure?
    }

    function PropagateFailure<U>(): Result<U, E>
      requires Failure?
    {
      Failure(error)
    }

    function Extract(): R
      requires Success?
    {
      value
    }
  }
}
